=== FILE: README.md ===
# hs100-api core, modelled in Dafny

A model of the sequential logic at the heart of the TP-Link Smart Home
library (`hs100-api`). Sockets, timers and the cipher are abstracted away, so
each operation is a pure function. It takes a state and returns the new
state plus the ordered events, probes or results it produces.

The model covers three pieces.

- **Device descriptors** (`src/device/index.ts`, `lib/device.js`):
  - the structural guards on a `get_sysinfo` descriptor;
  - the fallback getters for type, MAC and alias;
  - the `deviceType` classifier and the MAC normaliser;
  - child-id normalisation and the `context.child_ids` injection of `sendCommand`;
  - send-option layering and the transport choice;
  - the settling of a raw device reply on its `err_code`;
  - the older device class: its constructor defaults, its type-normalising setter, and the descriptor setter that derives its fields and the energy-meter flag.
- **Discovery and presence** (`src/client.js`, `lib/client.js`):
  - a registry of devices in insertion order and a discovery packet counter;
  - the offline scan that precedes every broadcast;
  - the probe list and the reply handler (drop, refresh or insert);
  - shutdown, classification and event-name expansion;
  - the older client with its `||` defaults, raw-type filter and `plug-` events.
- **Light state** (`src/bulb/lighting.ts`, `lib/bulb.js`):
  - change detection, which yields an ordered list of events;
  - the setters that trigger it;
  - the payloads built from light options;
  - the handling of the device's replies.

JavaScript values are modelled by `JsValues.JsValue`, a JSON value plus
`undefined`. The model keeps these language rules:

- `'k' in o` is not the same as `o.k !== undefined`;
- `||` falls back on every falsy value, while a destructuring default applies only to `undefined`;
- reading a property of `undefined` or `null` throws, which the model shows as an `Err`.

Numbers are integers.

Modules, one per file:

| module | file | models |
|---|---|---|
| `Wrappers` | wrappers.dfy | `Option`, `Result` |
| `JsValues` | js_value.dfy | JavaScript values, truthiness, property reads, `String()` |
| `Text` | text.dfy | substring search (plain and case-folding), MAC normalisation |
| `Sysinfo` | sysinfo.dfy | guards and getters of `src/device/index.ts` |
| `Command` | command.dfy | child ids, command context, send options, reply settling |
| `Sequence` | sequence.dfy | the discovery packet counter |
| `Presence` | presence.dfy | the device registry and the offline scan |
| `Discovery` | discovery.dfy | `src/client.js` discovery |
| `LegacyDiscovery` | legacy_discovery.dfy | `lib/client.js` |
| `LegacyDevice` | legacy_device.dfy | `lib/device.js` |
| `LegacyBulb` | legacy_bulb.dfy | `lib/bulb.js` |
| `Lighting` | lighting.dfy | `src/bulb/lighting.ts` |

## Model

| member | source | states |
|---|---|---|
| Sysinfo.CommonShapeExact | src/device/index.ts:53-64 | `isCommonSysinfo` holds exactly when the value is object-like and has all five common keys (alias, deviceId, model, sw_ver, hw_ver) |
| Sysinfo.PlugShapeExact | src/device/index.ts:79-87 | `isPlugSysinfo` holds exactly when the five common keys are present, plus one of type/mic_type, one of mac/ethernet_mac, feature, and one of relay_state/children |
| Sysinfo.BulbShapeExact | src/device/index.ts:66-77 | `isBulbSysinfo` holds exactly when the common keys and all seven bulb keys are present |
| Sysinfo.SysinfoGuards | src/device/index.ts:66-91 | the bulb and plug guards imply the common guard; `isSysinfo` is exactly plug-shaped or bulb-shaped; a common descriptor is an object |
| Sysinfo.SysinfoMonotone | src/device/index.ts:53-91 | adding keys to a descriptor never makes a guard fail |
| Sysinfo.ShapeMonotone | src/device/index.ts:53-64 | a key-group shape met by an object is met by every object with more keys |
| Sysinfo.FirstDefined | src/device/index.ts:232-238 | yields the value of the first key, in precedence order, that is present and not undefined; yields none exactly when no key qualifies |
| Sysinfo.TypeOf | src/device/index.ts:232-238 | `type` if defined, else `mic_type` if defined, else the empty string; never undefined |
| Sysinfo.MacOf | src/device/index.ts:278-289 | mac > mic_mac > ethernet_mac > empty string, each only when defined |
| Sysinfo.AliasOf | src/device/index.ts:189-191 | the empty string without a descriptor, otherwise the descriptor's alias (undefined when absent) |
| Sysinfo.DeviceTypeOf | src/device/index.ts:246-256 | plug iff the type contains "plug" ignoring case, even when it also contains "bulb"; bulb iff it contains "bulb" but not "plug"; device otherwise |
| Sysinfo.DeviceTypeExamples | src/device/index.ts:246-256 | the plug type string classifies as plug, and a type containing both words classifies as plug |
| Sysinfo.DeviceTypeBulbExample | src/device/index.ts:246-256 | the bulb type string classifies as bulb |
| Sysinfo.MissingFirstLetter | src/device/index.ts:249-252 | a string with no character matching the pattern's first letter, ignoring case, does not contain the pattern |
| Sysinfo.MacNormalized | src/device/index.ts:298-301 | a falsy MAC gives "", a string MAC gives its normal form (upper-case letters and digits only), and any other truthy value throws |
| Sysinfo.MacNormalizedIdempotent | src/device/index.ts:298-301 | storing a normalised MAC and normalising again changes nothing |
| Text.IndexFrom | src/device/index.ts:249-252 | returns the leftmost position at or after `from` where the pattern matches, or none exactly when no such position exists |
| Text.TestIgnoreCase | src/device/index.ts:249-252 | true iff the pattern occurs somewhere, ignoring ASCII case |
| Text.Includes | lib/device.js:55 | true iff the pattern occurs as a substring |
| Text.MacNormalize | src/device/index.ts:298-301 | every result character is an upper-case letter or digit, and the result is no longer than the input |
| Text.MacNormalizeChar | src/device/index.ts:298-301 | a single character normalises to its upper-case form when it is an ASCII letter or digit, and to nothing otherwise |
| Text.MacNormalizeAppend | src/device/index.ts:298-301 | normalisation distributes over concatenation; with the single-character rule, the normal form keeps exactly the alphanumerics, in order, upper-cased |
| Text.MacNormalizeNone | src/device/index.ts:298-301 | a string with no ASCII alphanumerics normalises to "" |
| Text.MacNormalizeFixed | src/device/index.ts:298-301 | a string of upper-case letters and digits is its own normal form |
| Text.MacNormalizeIdempotent | src/device/index.ts:298-301 | normalising twice equals normalising once |
| Text.MacNormalizeIgnoresSeparators | src/device/index.ts:292-301 | a MAC written with any non-alphanumeric separator between its octets (`aa:bb:cc:00:11:22`) normalises to the same value as the octets written back to back |
| Command.NormalizeChildIdForms | src/device/index.ts:391-400 | a 1-character id becomes deviceId + "0" + id; a 2-character id becomes deviceId + id; other lengths are unchanged |
| Command.NormalizeChildIdIdempotent | src/device/index.ts:391-400 | normalising an already normalised child id changes nothing |
| Command.ChildIdList | src/device/index.ts:374-378 | the list has one normalised id per given id, in order |
| Command.WithChildContext | src/device/index.ts:366-381 | with truthy child ids the command gains `context.child_ids`, the normalised list; otherwise the command is sent as given; no other key is touched |
| Command.ChildContextDefaults | src/device/index.ts:366-381 | an omitted argument uses the device's own child id; an explicit null adds no context; a single id equals a one-element list |
| Command.MergeOptions | src/device/index.ts:323-327 | the keys are the union; every per-call key wins; default keys survive where not overridden |
| Command.ChooseTransport | src/device/index.ts:332-335 | UDP iff the effective `transport` is the string "udp"; TCP otherwise |
| Command.OptionLayers | src/device/index.ts:160-163 | effective options are client defaults overridden by device defaults overridden by call options, and the transport follows the innermost layer that sets one |
| Command.StopPolling | src/device/index.ts:436-440 | the polling timer is cleared, and the cleared timer, if any, is reported |
| Command.SettleResponse | src/client.js:60-75 | a reply resolves iff its `err_code` is falsy (text that does not parse resolves as the text); it rejects on a truthy code; it throws on a null reply |
| Sequence.NextSequence | src/client.js:255-259 | the intended counter step stays within 0..2^53-1, increments below the maximum and wraps to 0 at it |
| Sequence.AdvanceCountsCycles | src/client.js:255-259 | after n cycles from 0 the intended counter is n mod 2^53 |
| Sequence.NextSequenceAsWritten | src/client.js:255-259 | the written step (double arithmetic compared with `Number.MAX_VALUE`) stays within 0..2^53 |
| Sequence.AsWrittenNeverWraps | lib/client.js:143-147 | the written step never yields 0 and sticks at 2^53, where the intended step wraps |
| Presence.EmptyRegistry | src/client.js:22-24 | a new registry is empty and well-formed |
| Presence.ScanOffline | src/client.js:238-246 | every listed device becomes offline iff it is stale (not offline and behind by at least the tolerance); unlisted records are untouched; the reported keys are exactly the stale ones, in order |
| Presence.StaleKeysFrame | src/client.js:238-246 | which keys are stale depends only on the records of the scanned keys |
| Presence.StaleKeysMembers | src/client.js:238-246 | a key is reported iff it is scanned and stale |
| Presence.StaleKeysNoDuplicates | src/client.js:238-246 | no device is reported offline twice in one scan |
| Presence.ScanRegistry | src/client.js:238-246 | the scan keeps the key set and insertion order, marks exactly the stale devices, and reports each once, in insertion order |
| Presence.ScanTouchesOnlyStale | src/client.js:240-245 | already-offline devices are unchanged and unreported; a stale device changes only its status |
| Presence.OfflineExactlyAtTolerance | src/client.js:240-243 | a device seen in cycle s stays online in earlier scans and goes offline in the scan of cycle s + tolerance |
| Presence.Refresh | src/client.js:188-195 | a known device gets the new host, port, descriptor, online status and seen cycle; keys, order and the other records are unchanged |
| Presence.Insert | src/client.js:196-205 | an unknown id adds exactly one record, appended to the insertion order; the other records are unchanged |
| Discovery.NewClient | src/client.js:17-25 | a new client has no devices, counter 0, no timer and no socket |
| Discovery.SessionFrom | src/client.js:153 | each given option is kept, falsy ones included, and falls back to its default only when undefined, so an explicit 0 tolerance stays 0 |
| Discovery.RawType | src/client.js:144-145 | `type \|\| mic_type`; throws exactly on an undefined or null descriptor |
| Discovery.TypeFromSysinfo | src/client.js:144-151 | plug exactly for SMARTPLUGSWITCH, bulb exactly for SMARTBULB, device otherwise |
| Discovery.ClassFromSysinfo | src/client.js:134-142 | a bulb exactly for SMARTBULB, a plug for everything else |
| Discovery.ClassifiersAgree | src/client.js:134-151 | the two classifiers fail together, and a device is built as a bulb exactly when its type is bulb |
| Discovery.ClassifierDivergence | src/client.js:144-151 | with an empty `type` beside a bulb `mic_type`, this classifier says bulb while the device getter says device |
| Discovery.TargetPort | src/client.js:252 | a target's port, or 9999 when it is missing or 0 |
| Discovery.TargetProbes | src/client.js:251-253 | one probe per explicit target, in list order |
| Discovery.CycleEmits | src/client.js:238-253 | a cycle's offline events name exactly the stale keys; probes are not events |
| Discovery.CycleEffects | src/client.js:238-262 | a cycle's effects are the offline events in scan order, then the broadcast, then the target probes, and the only offline events are those of the reported keys |
| Discovery.SendDiscovery | src/client.js:235-262 | effects in order: one `offline` event per stale device in insertion order, then the broadcast probe to port 9999, then the target probes; the registry is scanned and the counter steps; without a bound socket the scan and its events still happen, then the call throws (a TypeError before any start, the not-running error after a stop) with no probe sent and the counter unchanged |
| Discovery.SendOutsideSessionThrows | src/client.js:227-262 | a cycle on a new client, or after a stop, throws before any probe and leaves the counter where it was |
| Discovery.StartDiscovery | src/client.js:153-225 | arms the timer, opens the socket and runs the first cycle with the session's settings: the registry is scanned with the session's tolerance, and the effects are the offline events for the stale devices, then the broadcast to the session's address, then the session's targets |
| Discovery.HandleReply | src/client.js:165-206 | an unparseable or filtered reply changes nothing; a known id is refreshed with `online`; an unknown id is added as online with `new`; a refresh keeps the registration order and an insert appends the id to it; a missing descriptor throws |
| Discovery.StopDiscovery | src/client.js:227-233 | a no-op without a timer; otherwise clears the timer and closes the socket; never forgets a device |
| Discovery.EmitNames | src/client.js:101-111 | a device fires `device-<name>` and then, unless generic, `<type>-<name>`, and nothing else; any other argument fires the name itself |
| Discovery.EmitNamesForDevices | src/client.js:101-111 | every name fired for a device ends in `-<name>` right after a dash |
| Discovery.EmitNamesSeparateKinds | src/client.js:101-111 | the names fired for a plug and for a bulb differ |
| LegacyDiscovery.ConfigFrom | lib/client.js:20-24 | each truthy setting is kept and each falsy one falls back to its default (0 tolerance becomes 3); a given type filter is kept, and it defaults to the plug type |
| LegacyDiscovery.ZeroToleranceDiffers | lib/client.js:23 | an explicit tolerance of 0 becomes 3 in the older client and stays 0 in the newer one |
| LegacyDiscovery.NewLibClient | lib/client.js:15-30 | a new client has no devices, counter 0, a bound socket and no timer |
| LegacyDiscovery.LibProbes | lib/client.js:139-141 | one probe per target, in order |
| LegacyDiscovery.LibSendDiscovery | lib/client.js:123-150 | `plug-offline` for each stale device in order, then the broadcast probe to the configured address, then the targets, and the counter steps; on a closed socket the scan and its events still happen, then the call throws the not-running error with no probe sent and the counter unchanged |
| LegacyDiscovery.StartDiscoveryAsWritten | lib/client.js:103-115 | the written start arms the timer and runs a cycle with no targets, whatever targets it is given; it throws when the socket is closed, leaving the timer armed |
| LegacyDiscovery.StartDiscovery | lib/client.js:103-115 | the corrected start arms the timer and runs one cycle that probes every given target after the broadcast; it throws when the socket is closed, leaving the timer armed |
| LegacyDiscovery.RestartAfterStopThrows | lib/client.js:103-150 | starting again after `stopDiscovery` throws the not-running error: only `plug-offline` events go out, no probe, and the counter stays |
| LegacyDiscovery.StartDiscoveryDropsTargets | lib/client.js:103-115 | with targets given and the socket open, the written start sends one probe while the intended one sends one per target more |
| LegacyDiscovery.LibStopDiscovery | lib/client.js:117-121 | always clears the timer and marks the socket closed; throws the not-running error exactly when the socket was already closed, after the timer is cleared |
| LegacyDiscovery.StopTwiceFails | lib/client.js:103-121 | a second stop fails; a stop after a failed restart still disarms the timer the restart armed, though it throws |
| LegacyDiscovery.LibHandleReply | lib/client.js:40-92 | both descriptor and energy reading must be readable; a raw type outside the filter changes nothing; a known id is refreshed (host, port, descriptor, reading, online, seen) with `plug-online`; an unknown id is added with `plug-new`; a refresh keeps the registration order and an insert appends the id to it |
| LegacyDiscovery.DefaultFilterIgnoresBulbs | lib/client.js:65-72 | with the default filter a bulb's reply changes nothing |
| LegacyDevice.NormalizeType | lib/device.js:66-81 | plug exactly for the plug type string or "plug", bulb exactly for the bulb type string or "bulb", device otherwise |
| LegacyDevice.NormalizeTypeStable | lib/device.js:66-81 | normalising a normalised name changes nothing; on raw type strings it agrees with the discovery classifier |
| LegacyDevice.FeatureHasEnergy | lib/device.js:54-58 | true iff the feature string contains "ENE" or the feature list holds "ENE"; false for anything else, including a missing feature |
| LegacyDevice.NewDevice | lib/device.js:6-22 | a truthy port, seen cycle or timeout is kept; otherwise port falls back to 9999, timeout to 5000 and the seen cycle to null; model null; type device; empty descriptor and reading; null options throw |
| LegacyDevice.SeenCoercesToCounter | lib/device.js:13 | the null stored for cycle 0 subtracts as 0, so the scan sees the right cycle |
| LegacyDevice.SetSysinfo | lib/device.js:41-60 | stores the descriptor; copies alias, deviceId, dev_name, model, the normalised type, versions, mac and position; recomputes the energy flag; throws on a missing descriptor; touches nothing else |
| LegacyDevice.SetSysinfoIdempotent | lib/device.js:41-60 | storing a descriptor twice equals storing it once, and the derived fields depend only on the descriptor |
| LegacyDevice.GetSysInfo | lib/device.js:29-34 | resolves with the reply's descriptor, stored, iff it is readable; rejects otherwise, and then the device holds whatever the setter stored before throwing (the nullish descriptor itself) or is unchanged when the descriptor path is missing |
| LegacyDevice.GetModel | lib/device.js:99-103 | leaves the device exactly as the descriptor request did; resolves with the model of the freshly stored descriptor and rejects with that request's error |
| LegacyDevice.StopPolling | lib/device.js:94-97 | only the polling timer changes |
| LegacyBulb.NewBulb | lib/bulb.js:6-13 | a new bulb has no light state and an unknown last power state |
| LegacyBulb.EmitEvents | lib/bulb.js:38-60 | throws without a light state; otherwise exactly the power pair (power-on/bulb-on or power-off/bulb-off) first when the power state changes, then bulb-change last exactly when the state differs from the cached one, and nothing else; the cache is updated |
| LegacyBulb.EmitEventsSettles | lib/bulb.js:38-60 | a second run with nothing new emits nothing and changes nothing |
| LegacyBulb.SetSysinfo | lib/bulb.js:19-27 | stores the descriptor through the base setter and sets the energy flag from `feature`; the two event runs together emit what one run does; when the setter throws no event is emitted, only the stored descriptor changes, and for a present descriptor the error is the one the event run raises |
| LegacyBulb.SetConsumption | lib/bulb.js:31-36 | stores the reading; without an energy meter nothing else happens; with one, the result is exactly that of running the events on the bulb holding the new reading, including their error |
| LegacyBulb.SetConsumptionSettles | lib/bulb.js:31-60 | with a meter, storing the same reading a second time reports nothing and changes nothing |
| LegacyBulb.AcceptLightReply | lib/bulb.js:76-83 | an `err_code` of 0 stores the state and answers true; a non-zero code answers false and keeps the state; an unreadable code rejects with the reply; with a readable code, the bulb and the events are exactly those of running the events on the (possibly updated) bulb, and nothing changes when they throw |
| LegacyBulb.AcceptLightReplySettles | lib/bulb.js:73-84 | accepting the same successful reply again answers true, reports nothing and changes nothing |
| LegacyBulb.GetLightState | lib/bulb.js:73-84 | a failed request rejects unchanged; otherwise the details reply is accepted |
| LegacyBulb.LightPayload | lib/bulb.js:86-95 | all eight keys are present in the payload object; a truthy `ignore_default` or `transition_period` is kept, and a falsy one falls back to 1 or 0; `colorTemp` is sent as `color_temp`; the other keys pass through, `undefined` included |
| LegacyBulb.LightCommand | lib/bulb.js:97-101 | the state sits under the lighting service's `transition_light_state` |
| LegacyBulb.SetLightState | lib/bulb.js:86-113 | missing options or a failed request reject; otherwise the transition reply is accepted |
| LegacyBulb.FirstReplyTurnsOn | lib/bulb.js:73-84 | a first successful reply with the bulb on emits power-on, bulb-on, bulb-change and answers true |
| LegacyBulb.ErrorBeforeStateRejects | lib/bulb.js:76-83 | an error reply before any light state is known rejects with the reply and changes nothing |
| Lighting.NewLighting | src/bulb/lighting.ts:11-18 | the cache starts empty and nothing has been seen |
| Lighting.EmitEvents | src/bulb/lighting.ts:59-77 | nothing for a falsy state; otherwise exactly: on/off first when the power state changes, then change when the state differs, then update, and no other event; every event carries the state |
| Lighting.EmitTwiceOnlyUpdates | src/bulb/lighting.ts:59-77 | emitting twice with the same state reports only the update the second time |
| Lighting.StoreTwiceOnlyUpdates | src/bulb/lighting.ts:31-77 | assigning the same truthy state twice leaves the state as the first assignment left it and reports only `lightstate-update` |
| Lighting.FirstStateReportsAll | src/bulb/lighting.ts:17 | because nothing has been seen yet, the first state reports power, change and update, in that order |
| Lighting.StoreLightState | src/bulb/lighting.ts:31-34 | assigning the light state stores it first and then reports exactly the events the emitter gives for the new state; a falsy state emits nothing |
| Lighting.LightRequestsCarryNoContext | src/bulb/lighting.ts:86-93 | both requests pass null child ids, so no child context is added |
| Lighting.GetLightState | src/bulb/lighting.ts:86-95 | a failed request rejects unchanged; a reply goes through the setter (stored, then exactly the emitter's events) and is returned |
| Lighting.LightPayload | src/bulb/lighting.ts:113-136 | only defined inputs are sent; `ignore_default` is always sent, defaults to true and goes out as 1/0; `on_off` goes out as 1/0 |
| Lighting.SetLightState | src/bulb/lighting.ts:113-146 | missing options or a failed request reject; a reply goes through the setter (stored, then exactly the emitter's events) and the call answers true |
| Lighting.PayloadsDiffer | src/bulb/lighting.ts:127-131 | an explicit `ignore_default: false` goes out as 0 here but as 1 from the older class, and an unset `on_off` is absent from this payload object but a key holding `undefined` in the older one (serialisation drops it, so neither request carries it) |

## Left out

- Apart from whether a discovery socket is open, the TCP and UDP socket lifecycles are not modelled: connecting, writing, accumulating data, and the timeout and error handlers. A request's reply is a parameter: a value, or a rejection.
- The cipher (`encrypt`/`decrypt`) is not part of this model. A reply datagram arrives already decoded, either as a parsed JSON value or as text that does not parse.
- The `src/utils` response processing (`processResponse`) is not part of this model. The lighting requests take the settled reply as a parameter.
- Timers are not modelled: the discovery interval, the discovery timeout and polling. One discovery cycle is one call; a timer is a flag.
- Logging and the `debug` flags are not modelled.
- Floating point is not modelled: all numbers are integers, so `setLocation` rounding is out.
- Also out: `src/cli.ts`, `src/index.ts`, the examples and the test helpers (`compareMac`, schedule rules). They are not part of the core.
- `src/client.js` loads a device module (`./device`) that is not part of this model. Its device records are modelled as registry records: host, port, descriptor, status, seen cycle, and the class chosen for the device.
- Discovery.HandleReply: registers a new device under its descriptor's `deviceId`. In the source, the key is the constructed device's own `deviceId`, which that missing module sets.
- `lib/client.js` loads `./plug`, which is not part of this model either. A plug record keeps its last energy reading.
- Presence.Refresh: registry keys are compared structurally. A JavaScript `Map` compares object keys by identity, but device ids are strings in practice.
- Requests are modelled as payload objects. Serialising them with `JSON.stringify` before sending drops keys that hold `undefined`; the model does not serialise.
- LegacyBulb.EmitEvents: compares light states by structural equality, not by comparing `JSON.stringify` output. Serialisation depends on key order and drops undefined-valued keys; the model ignores both.
- Lighting.EmitEvents: uses structural equality for the deep comparison (`isEqual`).
- LegacyBulb.NewBulb: starts from the state the constructor evidently intends. As written, the constructor logs through `this.log` and merges into `this.lastState`, and the base class creates neither, so construction throws.
- LegacyDiscovery.LibProbes: a target's port is an integer here. The source has no default, so a missing port would reach the socket as `undefined`.
- Discovery.SessionFrom: the interval and timeout only drive timers, so they are recorded but have no effect.
- LegacyDiscovery.StartDiscoveryAsWritten: arms the timer, but the timeout is not modelled.
- LegacyDiscovery.StartDiscovery: models the first cycle only. The interval timer's later cycles are not modelled; after `stopDiscovery` each of them would throw the same not-running error.
- Discovery.SendDiscovery: steps the counter with the corrected wrap (`Sequence.NextSequence`), not with the double arithmetic as written. See "## Findings".
- LegacyDiscovery.LibSendDiscovery: steps the counter with the corrected wrap as well, for the same reason.
- Command.NormalizeChildIdForms: lengths count Unicode scalar values, not UTF-16 code units. An id holding one character outside the Basic Multilingual Plane has length 1 here but length 2 in JavaScript, so the two would normalise it differently.
- Command.WithChildContext: takes the command as an object only. The source also accepts a JSON string, which it parses first; parsing is not modelled.
- Command.WithChildContext: returns a new command. The source writes `context` into the caller's own command object, so a caller that reuses the object keeps the context from an earlier call; the model does not show that aliasing.
- Command.SettleResponse: models `send`'s own check on the top-level `err_code` only.
- The binding of the UDP socket's address and port in both clients is not modelled.
- Socket `error` events are not modelled.

## Findings

| source | as written | input that shows it | evidently intended | confidence | as-written member | corrected member |
|---|---|---|---|---|---|---|
| src/client.js:255-259 | the counter is compared with `Number.MAX_VALUE` and then incremented in doubles | a counter of 2^53 (reached after 2^53 cycles): `2^53 + 1` rounds back to 2^53, so the counter sticks and never returns to 0; the same code is at lib/client.js:143-147 | the counter wraps to 0 at its maximum, counting cycles modulo the maximum plus one | not executed; needs 2^53 cycles, so no practical effect | Sequence.AsWrittenNeverWraps | Sequence.AdvanceCountsCycles |
| lib/client.js:103-115 | `startDiscovery` calls `sendDiscovery(devices)`, which binds the targets to the `timeout` parameter and leaves `devices` undefined | `startDiscovery(10000, 0, [{host: '10.0.0.5', port: 9999}])`: only the broadcast probe is sent | every cycle also probes the given targets | not executed; follows from the parameter order | LegacyDiscovery.StartDiscoveryDropsTargets | LegacyDiscovery.StartDiscovery |

=== FILE: command.dfy ===
/** Command dispatch of `src/device/index.ts` (child-id addressing, send
    options and transport choice, polling shutdown) and the way
    `src/client.js` settles a TCP response on its `err_code`. */
module Command {
  import opened Wrappers
  import opened JsValues

  /** `normalizeChildId`: a one-character id is a zero-padded suffix of the
      device id, a two-character id a plain suffix; longer ids are full ids. */
  function NormalizeChildId(deviceId: JsValue, childId: string): string {
    if |childId| == 1 then ToJsString(deviceId) + "0" + childId
    else if |childId| == 2 then ToJsString(deviceId) + childId
    else childId
  }

  /** Short child ids expand to the device id followed by the id padded to
      two characters, so "1" and "01" address the same child; every other
      id is returned unchanged. */
  lemma NormalizeChildIdForms(deviceId: JsValue, childId: string)
    ensures |childId| == 1 ==> NormalizeChildId(deviceId, childId) == ToJsString(deviceId) + ['0', childId[0]]
    ensures |childId| == 2 ==> NormalizeChildId(deviceId, childId) == ToJsString(deviceId) + childId
    ensures |childId| == 1 ==> NormalizeChildId(deviceId, childId) == NormalizeChildId(deviceId, ['0', childId[0]])
    ensures |childId| != 1 && |childId| != 2 ==> NormalizeChildId(deviceId, childId) == childId
  {
    if |childId| == 1 {
      assert "0" + childId == ['0', childId[0]];
      assert ToJsString(deviceId) + "0" + childId == ToJsString(deviceId) + ("0" + childId);
    }
  }

  /** Normalising an already normalised id changes nothing: an expanded id
      is at least two characters long, and exactly two only when the device
      id prints as the empty string. */
  lemma NormalizeChildIdIdempotent(deviceId: JsValue, childId: string)
    ensures NormalizeChildId(deviceId, NormalizeChildId(deviceId, childId)) == NormalizeChildId(deviceId, childId)
  {
    var d := ToJsString(deviceId);
    var n := NormalizeChildId(deviceId, childId);
    if |childId| == 1 || |childId| == 2 {
      assert |n| == |d| + 2;
      if |d| == 0 {
        assert d + n == n;
      }
    }
  }

  /** The `childIds` argument of `sendCommand`: omitted (`undefined`, which
      falls back to the device's own child id), `null`, one id or a list. */
  datatype ChildIds = Omitted | NullIds | One(id: string) | Many(ids: seq<string>)

  /** The argument after the parameter default `= this.childId`. */
  function EffectiveChildIds(arg: ChildIds, ownChildId: Option<string>): ChildIds {
    match arg
    case Omitted => (match ownChildId case Some(c) => One(c) case None => Omitted)
    case _ => arg
  }

  /** `if (childIds)`: an empty string is falsy, any array is truthy. */
  predicate ChildIdsTruthy(ids: ChildIds) {
    match ids
    case One(s) => s != ""
    case Many(_) => true
    case _ => false
  }

  /** `castArray(childIds).map(normalizeChildId)` as JSON strings. */
  function ChildIdList(deviceId: JsValue, ids: seq<string>): (r: seq<JsValue>)
    ensures |r| == |ids|
    ensures forall i :: 0 <= i < |ids| ==> r[i] == Str(NormalizeChildId(deviceId, ids[i]))
  {
    if ids == [] then []
    else [Str(NormalizeChildId(deviceId, ids[0]))] + ChildIdList(deviceId, ids[1..])
  }

  function CastArray(ids: ChildIds): seq<string> {
    match ids
    case One(s) => [s]
    case Many(xs) => xs
    case _ => []
  }

  /** The command object `sendCommand` transmits: with truthy child ids it
      carries `context.child_ids` (a single id counts as a one-element list),
      otherwise the command is sent as given. No other key is touched. */
  function WithChildContext(cmd: map<string, JsValue>, deviceId: JsValue, arg: ChildIds,
                            ownChildId: Option<string>): (r: map<string, JsValue>)
    ensures !ChildIdsTruthy(EffectiveChildIds(arg, ownChildId)) ==> r == cmd
    ensures ChildIdsTruthy(EffectiveChildIds(arg, ownChildId)) ==>
              var ids := CastArray(EffectiveChildIds(arg, ownChildId));
              && "context" in r && r["context"].Obj?
              && r["context"].fields.Keys == {"child_ids"}
              && r["context"].fields["child_ids"].Arr?
              && |r["context"].fields["child_ids"].items| == |ids|
              && forall i :: 0 <= i < |ids| ==>
                   r["context"].fields["child_ids"].items[i] == Str(NormalizeChildId(deviceId, ids[i]))
    ensures forall k :: k != "context" ==> (k in r <==> k in cmd) && (k in cmd ==> r[k] == cmd[k])
  {
    var ids := EffectiveChildIds(arg, ownChildId);
    if ChildIdsTruthy(ids) then
      cmd["context" := Obj(map["child_ids" := Arr(ChildIdList(deviceId, CastArray(ids)))])]
    else cmd
  }

  /** An omitted argument addresses the device's own child; an explicit
      `null` never adds a context, even for a child device; a single id is
      the same as a one-element list. */
  lemma ChildContextDefaults(cmd: map<string, JsValue>, deviceId: JsValue, own: string)
    ensures own != "" ==> WithChildContext(cmd, deviceId, Omitted, Some(own)) == WithChildContext(cmd, deviceId, Many([own]), None)
    ensures WithChildContext(cmd, deviceId, NullIds, Some(own)) == cmd
    ensures WithChildContext(cmd, deviceId, Omitted, None) == cmd
    ensures own != "" ==> WithChildContext(cmd, deviceId, One(own), None) == WithChildContext(cmd, deviceId, Many([own]), None)
  {
  }

  /** Per-call send options; a JavaScript object of option values. */
  type SendOptions = map<string, JsValue>

  /** `{...defaults, ...overrides}`: every own key of the overrides replaces
      the default, including keys that hold `undefined`; spreading
      `undefined` adds nothing. */
  function MergeOptions(defaults: SendOptions, overrides: Option<SendOptions>): (r: SendOptions)
    ensures overrides.Some? ==> r.Keys == defaults.Keys + overrides.value.Keys
    ensures overrides.Some? ==> forall k :: k in overrides.value ==> r[k] == overrides.value[k]
    ensures forall k :: k in defaults && (overrides.None? || k !in overrides.value) ==> k in r && r[k] == defaults[k]
    ensures overrides.None? ==> r == defaults
  {
    match overrides
    case None => defaults
    case Some(o) => defaults + o
  }

  /** The device's defaults: the client's, overridden by the device's own. */
  function DeviceDefaults(clientDefaults: Option<SendOptions>, deviceOptions: Option<SendOptions>): SendOptions {
    MergeOptions(clientDefaults.GetOr(map[]), deviceOptions)
  }

  datatype Transport = Tcp | Udp

  /** UDP exactly when the effective `transport` option is the string "udp". */
  function ChooseTransport(options: SendOptions): (r: Transport)
    ensures r == Udp <==> "transport" in options && options["transport"] == Str("udp")
  {
    if Field(options, "transport") == Str("udp") then Udp else Tcp
  }

  /** What `send` decides before any I/O: the effective options and the
      transport they select. */
  function PlanSend(deviceDefaults: SendOptions, sendOptions: Option<SendOptions>): (SendOptions, Transport) {
    var options := MergeOptions(deviceDefaults, sendOptions);
    (options, ChooseTransport(options))
  }

  /** Precedence of the three option layers: a per-call key wins over the
      device's, which wins over the client's; the transport follows the
      highest layer that sets the `transport` key. */
  lemma OptionLayers(client: SendOptions, device: SendOptions, call: SendOptions)
    ensures PlanSend(DeviceDefaults(Some(client), Some(device)), Some(call)).0 == client + device + call
    ensures "transport" in call ==>
              (PlanSend(DeviceDefaults(Some(client), Some(device)), Some(call)).1 == Udp <==> call["transport"] == Str("udp"))
    ensures "transport" !in call && "transport" in device ==>
              (PlanSend(DeviceDefaults(Some(client), Some(device)), Some(call)).1 == Udp <==> device["transport"] == Str("udp"))
    ensures "transport" !in call && "transport" !in device ==>
              PlanSend(DeviceDefaults(Some(client), Some(device)), Some(call)).1
              == PlanSend(client, None).1
  {
  }

  /** `stopPolling`: clears the timer when there is one; a second call
      finds nothing to clear. */
  function StopPolling(timer: Option<nat>): (r: (Option<nat>, Option<nat>))
    ensures r.0 == None
    ensures r.1 == timer
  {
    (None, timer)
  }

  /** How the TCP `end` handler settles the call: `Resolved` with the data,
      `Rejected` with it, or a `TypeError` escaping the handler. */
  datatype Settled = Resolved(data: JsValue) | Rejected(response: JsValue) | Escaped(error: JsError)

  /** The text received is parsed as JSON, or kept as a string when it does
      not parse; the call resolves when `err_code` is falsy or 0. */
  function SettleResponse(parsed: Option<JsValue>, raw: string): (r: Settled)
    ensures r.Resolved? ==> r.data == parsed.GetOr(Str(raw))
    ensures r.Resolved? <==> Get(parsed.GetOr(Str(raw)), "err_code").Ok?
                             && !Truthy(Get(parsed.GetOr(Str(raw)), "err_code").value)
    ensures r.Escaped? <==> parsed == Some(Null) || parsed == Some(Undefined)
    ensures parsed.None? ==> r == Resolved(Str(raw))
  {
    var data := parsed.GetOr(Str(raw));
    match Get(data, "err_code")
    case Err(e) => Escaped(e)
    case Ok(code) => if !Truthy(code) || code == Num(0) then Resolved(data) else Rejected(data)
  }
}

=== FILE: discovery.dfy ===
/** The discovery and presence engine of `src/client.js`: one broadcast
    cycle (`sendDiscovery`), the handler for a reply datagram, shutdown,
    the classification of a reply's descriptor and the expansion of event
    names. The cipher, the timers and the UDP socket beyond whether it
    exists and is bound are outside the model: a cycle is one call, a reply
    arrives already decrypted and parsed (or not parseable). */
module Discovery {
  import opened Wrappers
  import opened JsValues
  import opened Sysinfo
  import opened Presence
  import opened Sequence

  /** The port devices listen on and discovery probes are sent to. */
  const DevicePort: int := 9999

  /** `startDiscovery` defaults. */
  const DefaultBroadcast: string := "255.255.255.255"
  const DefaultInterval: int := 10000
  const DefaultTimeout: int := 0
  const DefaultTolerance: int := 3

  /** The class `getDeviceFromSysInfo` instantiates. */
  datatype DeviceClass = PlugClass | BulbClass

  /** An explicit discovery target; `port` may be absent. */
  datatype Target = Target(host: string, port: Option<int>)

  /** One probe datagram (the encrypted `get_sysinfo` request) and where it goes. */
  datatype Probe = Probe(host: string, port: int)

  /** An event the client emits, with the id of the device it concerns. */
  datatype Event = Event(name: string, device: JsValue)

  /** What one step does, in order. */
  datatype Effect = Emit(event: Event) | Send(probe: Probe)

  /** A reply datagram after decryption: JSON, or text that does not parse. */
  datatype Reply = Unparseable | Parsed(json: JsValue)

  /** The options object of `startDiscovery`; `None` is `undefined`. */
  datatype DiscoveryOptions = DiscoveryOptions(
    broadcast: Option<string>,
    discoveryInterval: Option<int>,
    discoveryTimeout: Option<int>,
    offlineTolerance: Option<int>,
    deviceTypes: Option<seq<string>>,
    devices: Option<seq<Target>>)

  /** The settings one `startDiscovery` call captures. */
  datatype Session = Session(
    broadcast: string,
    interval: int,
    timeout: int,
    tolerance: int,
    deviceTypes: Option<seq<string>>,
    targets: Option<seq<Target>>)

  /** `this.socket`: not created before the first `startDiscovery`, then
      bound, then closed by `stopDiscovery`. */
  datatype SocketState = NoSocket | Bound | Closed

  datatype Client = Client(registry: Registry<DeviceClass>, counter: int, timerSet: bool, socket: SocketState)

  /** Only `startDiscovery` arms the timer, and it creates the socket first. */
  ghost predicate ClientValid(c: Client) {
    Valid(c.registry) && 0 <= c.counter <= MaxSafeInteger && (c.timerSet ==> c.socket != NoSocket)
  }

  /** A freshly constructed client: no devices, counter 0, no timer and no
      socket. */
  function NewClient(): (c: Client)
    ensures ClientValid(c) && c.registry.devices == map[] && c.counter == 0 && !c.timerSet && c.socket == NoSocket
  {
    Client(EmptyRegistry(), 0, false, NoSocket)
  }

  /** Destructuring defaults apply to `undefined` only, so an explicit 0
      tolerance stays 0. */
  function SessionFrom(o: DiscoveryOptions): (s: Session)
    ensures o.offlineTolerance.Some? ==> s.tolerance == o.offlineTolerance.value
    ensures o.offlineTolerance.None? ==> s.tolerance == DefaultTolerance
    ensures o.broadcast.Some? ==> s.broadcast == o.broadcast.value
    ensures o.broadcast.None? ==> s.broadcast == DefaultBroadcast
    ensures o.discoveryInterval.Some? ==> s.interval == o.discoveryInterval.value
    ensures o.discoveryInterval.None? ==> s.interval == DefaultInterval
    ensures o.discoveryTimeout.Some? ==> s.timeout == o.discoveryTimeout.value
    ensures o.discoveryTimeout.None? ==> s.timeout == DefaultTimeout
    ensures s.deviceTypes == o.deviceTypes && s.targets == o.devices
  {
    Session(o.broadcast.GetOr(DefaultBroadcast), o.discoveryInterval.GetOr(DefaultInterval),
            o.discoveryTimeout.GetOr(DefaultTimeout), o.offlineTolerance.GetOr(DefaultTolerance),
            o.deviceTypes, o.devices)
  }

  /** `sysInfo.type || sysInfo.mic_type`; throws when the descriptor is
      `undefined` or `null`. */
  function RawType(sysinfo: JsValue): (r: Result<JsValue, JsError>)
    ensures r.Err? <==> sysinfo == Undefined || sysinfo == Null
    ensures r.Ok? ==> r.value == Or(Get(sysinfo, "type").value, Get(sysinfo, "mic_type").value)
  {
    if sysinfo == Undefined || sysinfo == Null then Err(TypeError("Cannot read properties of the descriptor"))
    else Ok(Or(Prop(sysinfo, "type"), Prop(sysinfo, "mic_type")))
  }

  /** `getTypeFromSysInfo` once the raw type is read: exact match on the
      two known type strings. */
  function KindFromType(t: JsValue): DeviceKind {
    if t == Str("IOT.SMARTPLUGSWITCH") then PlugKind
    else if t == Str("IOT.SMARTBULB") then BulbKind
    else GenericKind
  }

  /** `getDeviceFromSysInfo` once the raw type is read: a bulb for the bulb
      type, a plug for the plug type and for anything else. */
  function ClassFromType(t: JsValue): DeviceClass {
    match t
    case Str("IOT.SMARTPLUGSWITCH") => PlugClass
    case Str("IOT.SMARTBULB") => BulbClass
    case _ => PlugClass
  }

  /** `getTypeFromSysInfo`. */
  function TypeFromSysinfo(sysinfo: JsValue): (r: Result<DeviceKind, JsError>)
    ensures r.Err? <==> RawType(sysinfo).Err?
    ensures r.Ok? ==> (r.value == PlugKind <==> RawType(sysinfo).value == Str("IOT.SMARTPLUGSWITCH"))
    ensures r.Ok? ==> (r.value == BulbKind <==> RawType(sysinfo).value == Str("IOT.SMARTBULB"))
  {
    var t :- RawType(sysinfo);
    Ok(KindFromType(t))
  }

  /** `getDeviceFromSysInfo`. */
  function ClassFromSysinfo(sysinfo: JsValue): (r: Result<DeviceClass, JsError>)
    ensures r.Err? <==> RawType(sysinfo).Err?
    ensures r.Ok? ==> (r.value == BulbClass <==> RawType(sysinfo).value == Str("IOT.SMARTBULB"))
  {
    var t :- RawType(sysinfo);
    Ok(ClassFromType(t))
  }

  /** The two classifiers agree: a device is built as a bulb exactly when
      its type is `bulb`; `plug` and unknown (`device`) types are both
      built as plugs. */
  lemma ClassifiersAgree(sysinfo: JsValue)
    ensures TypeFromSysinfo(sysinfo).Ok? <==> ClassFromSysinfo(sysinfo).Ok?
    ensures TypeFromSysinfo(sysinfo).Ok? ==>
              (ClassFromSysinfo(sysinfo).value == BulbClass <==> TypeFromSysinfo(sysinfo).value == BulbKind)
  {
  }

  /** The descriptor getter of the device model and this client's
      classifier read the type differently (`!== undefined` against `||`):
      an empty `type` beside a bulb `mic_type` is a bulb here and a generic
      device there. */
  lemma ClassifierDivergence()
    ensures var m := map["type" := Str(""), "mic_type" := Str("IOT.SMARTBULB")];
            TypeFromSysinfo(Obj(m)) == Ok(BulbKind) && DeviceTypeOf(m) == GenericKind
  {
    var m := map["type" := Str(""), "mic_type" := Str("IOT.SMARTBULB")];
    assert TypeOf(m) == Str("");
    assert ToJsString(Str("")) == "";
    assert !Text.Occurs("", "plug", true);
    assert !Text.Occurs("", "bulb", true);
  }

  /** `d.port || 9999`. */
  function TargetPort(t: Target): (p: int)
    ensures t.port.Some? && t.port.value != 0 ==> p == t.port.value
    ensures t.port.None? || t.port.value == 0 ==> p == DevicePort
  {
    match t.port
    case Some(p) => if p != 0 then p else DevicePort
    case None => DevicePort
  }

  /** One unicast probe per explicit target, in list order. */
  function TargetProbes(targets: seq<Target>): (r: seq<Effect>)
    ensures |r| == |targets|
    ensures forall i :: 0 <= i < |targets| ==> r[i] == Send(Probe(targets[i].host, TargetPort(targets[i])))
  {
    if targets == [] then []
    else [Send(Probe(targets[0].host, TargetPort(targets[0])))] + TargetProbes(targets[1..])
  }

  /** One `offline` event per key, in order. */
  function OfflineEvents(keys: seq<JsValue>, name: string): (r: seq<Effect>)
    ensures |r| == |keys|
    ensures forall i :: 0 <= i < |keys| ==> r[i] == Emit(Event(name, keys[i]))
  {
    if keys == [] then [] else [Emit(Event(name, keys[0]))] + OfflineEvents(keys[1..], name)
  }

  /** The effects of a cycle emit exactly the stale keys: probes are not
      events. */
  lemma CycleEmits(keys: seq<JsValue>, probes: seq<Effect>, name: string)
    requires forall i :: 0 <= i < |probes| ==> probes[i].Send?
    ensures forall k :: Emit(Event(name, k)) in OfflineEvents(keys, name) + probes <==> k in keys
  {
    var effects := OfflineEvents(keys, name) + probes;
    forall k ensures Emit(Event(name, k)) in effects <==> k in keys {
      if Emit(Event(name, k)) in effects {
        var i :| 0 <= i < |effects| && effects[i] == Emit(Event(name, k));
        assert i < |keys|;
        assert keys[i] == k;
      }
      if k in keys {
        var i :| 0 <= i < |keys| && keys[i] == k;
        assert effects[i] == Emit(Event(name, k));
      }
    }
  }

  /** The effects of one cycle, in order: an event per stale key, the
      broadcast probe, then the other probes. */
  predicate CycleShape(r: seq<Effect>, stale: seq<JsValue>, name: string, broadcast: Probe, rest: seq<Effect>) {
    && |r| == |stale| + 1 + |rest|
    && (forall i :: 0 <= i < |stale| ==> r[i] == Emit(Event(name, stale[i])))
    && r[|stale|] == Send(broadcast)
    && (forall i :: 0 <= i < |rest| ==> r[|stale| + 1 + i] == rest[i])
  }

  function CycleEffects(stale: seq<JsValue>, name: string, broadcast: Probe, rest: seq<Effect>): (r: seq<Effect>)
    requires forall i :: 0 <= i < |rest| ==> rest[i].Send?
    ensures CycleShape(r, stale, name, broadcast, rest)
    ensures forall k :: Emit(Event(name, k)) in r <==> k in stale
  {
    CycleEmits(stale, [Send(broadcast)] + rest, name);
    OfflineEvents(stale, name) + ([Send(broadcast)] + rest)
  }

  /** `sendDiscovery(address, devices, offlineTolerance)`: first the offline
      scan, in registry order, then the broadcast probe, then one probe per
      explicit target; finally the counter steps. Without a bound socket the
      scan still runs and reports, but the broadcast send throws (reading
      `send` of `undefined` before the first start, the socket's
      not-running error after a stop), so no probe goes out and the counter
      stays. The third component is the error the call throws, if any. */
  function SendDiscovery(c: Client, address: string, targets: Option<seq<Target>>, tolerance: int)
    : (r: (Client, seq<Effect>, Option<JsError>))
    requires ClientValid(c)
    ensures ClientValid(r.0) && Scanned(c.registry, r.0.registry, c.counter, tolerance)
    ensures r.0.timerSet == c.timerSet && r.0.socket == c.socket
    ensures c.socket == Bound <==> r.2.None?
    ensures c.socket == NoSocket ==> r.2.Some? && r.2.value.TypeError?
    ensures c.socket == Closed ==> r.2 == Some(SocketNotRunning)
    ensures c.socket == Bound ==> r.0.counter == NextSequence(c.counter)
    ensures c.socket != Bound ==> r.0.counter == c.counter
    ensures c.socket == Bound ==>
              CycleShape(r.1, StaleKeys(c.registry.devices, c.registry.order, c.counter, tolerance), "offline",
                         Probe(address, DevicePort), TargetProbes(targets.GetOr([])))
    ensures c.socket != Bound ==>
              r.1 == OfflineEvents(StaleKeys(c.registry.devices, c.registry.order, c.counter, tolerance), "offline")
    ensures forall k :: Emit(Event("offline", k)) in r.1 <==>
              k in c.registry.devices && Stale(c.registry.devices[k], c.counter, tolerance)
  {
    var scanned := ScanRegistry(c.registry, c.counter, tolerance);
    match c.socket
    case Bound =>
      (c.(registry := scanned.0, counter := NextSequence(c.counter)),
       CycleEffects(scanned.1, "offline", Probe(address, DevicePort), TargetProbes(targets.GetOr([]))),
       None)
    case _ =>
      CycleEmits(scanned.1, [], "offline");
      assert OfflineEvents(scanned.1, "offline") + [] == OfflineEvents(scanned.1, "offline");
      var error := if c.socket == NoSocket then TypeError("Cannot read properties of undefined (reading 'send')")
                   else SocketNotRunning;
      (c.(registry := scanned.0), OfflineEvents(scanned.1, "offline"), Some(error))
  }

  /** Outside a discovery session a cycle only reports: before the first
      start, and after a stop, it throws before sending anything and the
      counter stays. */
  lemma SendOutsideSessionThrows(c: Client, address: string, targets: Option<seq<Target>>, tolerance: int)
    requires ClientValid(c) && c.timerSet
    ensures var unstarted := SendDiscovery(NewClient(), address, targets, tolerance);
            unstarted.2.Some? && unstarted.0.counter == 0 && unstarted.1 == []
    ensures var stopped := SendDiscovery(StopDiscovery(c), address, targets, tolerance);
            && stopped.2 == Some(SocketNotRunning) && stopped.0.counter == c.counter
            && forall i :: 0 <= i < |stopped.1| ==> stopped.1[i].Emit?
  {
    var s := StopDiscovery(c);
    assert SendDiscovery(s, address, targets, tolerance).1
        == OfflineEvents(StaleKeys(s.registry.devices, s.registry.order, s.counter, tolerance), "offline");
  }

  /** `startDiscovery`: bind the socket, arm the timer and run the first
      cycle with the session's broadcast address, targets and tolerance. */
  function StartDiscovery(c: Client, o: DiscoveryOptions): (r: (Client, Session, seq<Effect>))
    requires ClientValid(c)
    ensures ClientValid(r.0) && r.0.timerSet && r.0.socket == Bound
    ensures r.1 == SessionFrom(o)
    ensures r.0.counter == NextSequence(c.counter)
    ensures Scanned(c.registry, r.0.registry, c.counter, r.1.tolerance)
    ensures CycleShape(r.2, StaleKeys(c.registry.devices, c.registry.order, c.counter, r.1.tolerance), "offline",
                       Probe(r.1.broadcast, DevicePort), TargetProbes(r.1.targets.GetOr([])))
  {
    var s := SessionFrom(o);
    var step := SendDiscovery(c.(timerSet := true, socket := Bound), s.broadcast, s.targets, s.tolerance);
    (step.0, s, step.1)
  }

  /** The reply passes the optional device-type filter. */
  predicate Admitted(deviceTypes: Option<seq<string>>, sysinfo: JsValue) {
    deviceTypes.None? || (TypeFromSysinfo(sysinfo).Ok? && TypeFromSysinfo(sysinfo).value.Name() in deviceTypes.value)
  }

  /** The `message` handler of `startDiscovery`. A reply that does not
      parse, or whose type the filter rejects, changes nothing. A known
      device is refreshed and reported `online`; an unknown one is added and
      reported `new`. Reading a field of a missing descriptor throws. */
  function HandleReply(c: Client, deviceTypes: Option<seq<string>>, reply: Reply, host: string, port: int)
    : (r: Result<(Client, seq<Event>), JsError>)
    requires ClientValid(c)
    ensures reply.Unparseable? ==> r == Ok((c, []))
    ensures r.Ok? ==> ClientValid(r.value.0) && r.value.0.counter == c.counter
                      && r.value.0.timerSet == c.timerSet && r.value.0.socket == c.socket
    ensures r.Ok? && r.value.1 == [] ==> r.value.0 == c
    ensures reply.Parsed? ==>
              (r.Err? <==> GetPath(reply.json, "system", "get_sysinfo").Err?
                           || RawType(GetPath(reply.json, "system", "get_sysinfo").value).Err?)
    ensures reply.Parsed? && r.Ok? ==>
              var si := GetPath(reply.json, "system", "get_sysinfo").value;
              var id := Get(si, "deviceId").value;
              var reg := c.registry;
              && (!Admitted(deviceTypes, si) ==> r.value == (c, []))
              && (Admitted(deviceTypes, si) && id in reg.devices ==>
                    && r.value.1 == [Event("online", id)]
                    && r.value.0.registry.devices.Keys == reg.devices.Keys && r.value.0.registry.order == reg.order
                    && r.value.0.registry.devices[id] == Record(host, port, si, Online, c.counter, reg.devices[id].extra)
                    && (forall k :: k in reg.devices && k != id ==> r.value.0.registry.devices[k] == reg.devices[k]))
              && (Admitted(deviceTypes, si) && id !in reg.devices ==>
                    && r.value.1 == [Event("new", id)]
                    && r.value.0.registry.devices.Keys == reg.devices.Keys + {id} && r.value.0.registry.order == reg.order + [id]
                    && r.value.0.registry.devices[id].status == Online
                    && r.value.0.registry.devices[id] == Record(host, port, si, Online, c.counter, ClassFromSysinfo(si).value)
                    && (forall k :: k in reg.devices ==> r.value.0.registry.devices[k] == reg.devices[k]))
  {
    match reply
    case Unparseable => Ok((c, []))
    case Parsed(json) =>
      var si :- GetPath(json, "system", "get_sysinfo");
      var t :- RawType(si);
      if deviceTypes.Some? && KindFromType(t).Name() !in deviceTypes.value then Ok((c, []))
      else
        var id := Prop(si, "deviceId");
        if id in c.registry.devices then
          var extra := c.registry.devices[id].extra;
          Ok((c.(registry := Refresh(c.registry, id, host, port, si, c.counter, extra)), [Event("online", id)]))
        else
          Ok((c.(registry := Insert(c.registry, id, Record(host, port, si, Online, c.counter, ClassFromType(t)))),
              [Event("new", id)]))
  }

  /** `stopDiscovery`: clears the timer and closes the socket when a timer
      is set, does nothing otherwise, and never forgets a device. */
  function StopDiscovery(c: Client): (r: Client)
    requires ClientValid(c)
    ensures ClientValid(r)
    ensures r.registry == c.registry && r.counter == c.counter
    ensures !r.timerSet
    ensures !c.timerSet ==> r == c
    ensures c.timerSet ==> r.socket == Closed
  {
    if c.timerSet then c.(timerSet := false, socket := Closed) else c
  }

  /** The first argument of `emit`: a device (with its `type`) or anything else. */
  datatype EmitArg = DeviceArg(deviceType: string) | OtherArg

  /** The event names `emit(name, arg)` fires: for a device, `device-<name>`
      and, unless the device is generic, `<type>-<name>`. */
  function EmitNames(name: string, arg: EmitArg): (r: seq<string>)
    ensures arg.OtherArg? ==> r == [name]
    ensures arg.DeviceArg? ==> |r| == (if arg.deviceType == "device" then 1 else 2) && r[0] == "device-" + name
    ensures arg.DeviceArg? && arg.deviceType != "device" ==> r[1] == arg.deviceType + "-" + name
  {
    match arg
    case OtherArg => [name]
    case DeviceArg(t) => ["device-" + name] + (if t != "device" then [t + "-" + name] else [])
  }

  /** A prefix ending in `-` puts a dash right before the suffix. */
  lemma DashSuffix(p: string, name: string)
    requires |p| >= 1 && p[|p| - 1] == '-'
    ensures var n := p + name; |n| > |name| && n[|n| - |name|..] == name && n[|n| - |name| - 1] == '-'
  {
    var n := p + name;
    assert n[|p|..] == name;
    assert n[|p| - 1] == p[|p| - 1];
  }

  /** Every name fired for a device ends with `-<name>`. */
  lemma EmitNamesForDevices(name: string, t: string)
    ensures forall n :: n in EmitNames(name, DeviceArg(t)) ==> |n| > |name| && n[|n| - |name|..] == name && n[|n| - |name| - 1] == '-'
  {
    var r := EmitNames(name, DeviceArg(t));
    DashSuffix("device-", name);
    if t != "device" {
      assert r == ["device-" + name, t + "-" + name];
      DashSuffix(t + "-", name);
    } else {
      assert r == ["device-" + name];
    }
  }

  /** The type-specific name tells plugs and bulbs apart. */
  lemma EmitNamesSeparateKinds(name: string)
    ensures EmitNames(name, DeviceArg("plug")) != EmitNames(name, DeviceArg("bulb"))
  {
    assert EmitNames(name, DeviceArg("plug"))[1] == "plug-" + name;
    assert EmitNames(name, DeviceArg("bulb"))[1] == "bulb-" + name;
    assert ("plug-" + name)[0] != ("bulb-" + name)[0];
  }
}

=== FILE: js_value.dfy ===
/** The slice of JavaScript value semantics the device library relies on:
    parsed JSON values (plus `undefined`), truthiness, `||`, property reads
    and string conversion. Numbers are integers only. */
module JsValues {
  import opened Wrappers

  datatype JsValue =
    | Undefined
    | Null
    | Bool(b: bool)
    | Num(n: int)
    | Str(s: string)
    | Arr(items: seq<JsValue>)
    | Obj(fields: map<string, JsValue>)

  /** An exception the code does not catch: one the engine raises, or the
      error Node's datagram socket raises when it is closed twice. */
  datatype JsError = TypeError(reason: string) | SocketNotRunning

  /** JavaScript truthiness (`if (v)`, `!v`). */
  predicate Truthy(v: JsValue) {
    match v
    case Undefined => false
    case Null => false
    case Bool(b) => b
    case Num(n) => n != 0
    case Str(s) => s != ""
    case Arr(_) => true
    case Obj(_) => true
  }

  /** `a || b`: the left operand when it is truthy, otherwise the right. */
  function Or(a: JsValue, b: JsValue): JsValue {
    if Truthy(a) then a else b
  }

  /** `o.k` on an object whose own fields are `m`. */
  function Field(m: map<string, JsValue>, k: string): JsValue {
    if k in m then m[k] else Undefined
  }

  /** `m.k !== undefined` (a key may be present and hold `undefined`). */
  predicate Defined(m: map<string, JsValue>, k: string) {
    k in m && m[k] != Undefined
  }

  /** `v.k`: reading a property of `undefined` or `null` throws; other
      primitives and arrays have none of the property names the library
      reads, so they yield `undefined`. */
  function Get(v: JsValue, k: string): (r: Result<JsValue, JsError>)
    ensures r.Err? <==> v == Undefined || v == Null
    ensures v.Obj? ==> r == Ok(Field(v.fields, k))
  {
    match v
    case Undefined => Err(TypeError("Cannot read properties of undefined"))
    case Null => Err(TypeError("Cannot read properties of null"))
    case _ => Ok(Prop(v, k))
  }

  /** The value `v.k` yields once `v` is known to be neither `undefined`
      nor `null`. */
  function Prop(v: JsValue, k: string): JsValue {
    if v.Obj? then Field(v.fields, k) else Undefined
  }

  /** `v.k1.k2`, throwing as soon as one step reads from `undefined`/`null`. */
  function GetPath(v: JsValue, k1: string, k2: string): Result<JsValue, JsError> {
    var x :- Get(v, k1);
    Get(x, k2)
  }

  function DigitChar(d: int): char
    requires 0 <= d < 10
  {
    "0123456789"[d]
  }

  /** Decimal digits of a natural number, no leading zeros. */
  function NatToString(n: nat): (r: string)
    ensures |r| >= 1
    ensures forall i :: 0 <= i < |r| ==> '0' <= r[i] <= '9'
    decreases n
  {
    if n < 10 then [DigitChar(n)] else NatToString(n / 10) + [DigitChar(n % 10)]
  }

  function IntToString(n: int): string {
    if n < 0 then "-" + NatToString(-n) else NatToString(n)
  }

  /** `String(v)`, as used by template literals, `+` with a string and
      `RegExp.prototype.test`. */
  function ToJsString(v: JsValue): string
    decreases v, 1
  {
    match v
    case Undefined => "undefined"
    case Null => "null"
    case Bool(b) => if b then "true" else "false"
    case Num(n) => IntToString(n)
    case Str(s) => s
    case Arr(xs) => JoinFrom(v, 0)
    case Obj(_) => "[object Object]"
  }

  /** `Array.prototype.join(",")` of the elements from index `i` on:
      `undefined` and `null` elements print as the empty string. */
  function JoinFrom(v: JsValue, i: nat): string
    requires v.Arr? && i <= |v.items|
    decreases v, 0, |v.items| - i
  {
    if i == |v.items| then ""
    else
      var x := v.items[i];
      assert x in v.items;
      var piece := if x == Undefined || x == Null then "" else ToJsString(x);
      if i + 1 == |v.items| then piece else piece + "," + JoinFrom(v, i + 1)
  }
}

=== FILE: legacy_bulb.dfy ===
/** The bulb class of `lib/device.js`'s subclass `lib/bulb.js`: its change
    events, the descriptor and energy-reading setters that trigger them, and
    the light-state request and command with their error handling.

    As written the constructor cannot complete (it logs through, and merges
    into, fields the base class never creates), so the model starts from the
    state it evidently intends: no light state yet, and an unknown last
    power state. */
module LegacyBulb {
  import opened Wrappers
  import opened JsValues
  import opened LegacyDevice

  /** The service every light request addresses. */
  const LightingService: string := "smartlife.iot.smartbulb.lightingservice"

  /** `lightState` is a plain field that stays `undefined` until a request
      succeeds; `lastPowerOn` starts `null` and `lastLightState` starts
      `undefined`. */
  datatype LibBulb = LibBulb(device: LibDevice, lightState: JsValue, lastPowerOn: JsValue, lastLightState: JsValue)

  function NewBulb(d: LibDevice): (b: LibBulb)
    ensures b.device == d && b.lightState == Undefined && b.lastPowerOn == Null
  {
    LibBulb(d, Undefined, Null, Undefined)
  }

  /** `emitEvents`: reading `on_off` from a missing light state throws. A
      power change is reported as `power-on`/`bulb-on` or
      `power-off`/`bulb-off`; then `bulb-change` when the light state
      differs from the last one seen. */
  function EmitEvents(b: LibBulb): (r: Result<(LibBulb, seq<string>), JsError>)
    ensures r.Err? <==> b.lightState == Undefined || b.lightState == Null
    ensures r.Ok? ==> var on := Prop(b.lightState, "on_off") == Num(1);
              && r.value.0 == b.(lastPowerOn := Bool(on), lastLightState := b.lightState)
              && (b.lastPowerOn != Bool(on) && on ==> |r.value.1| >= 2 && r.value.1[..2] == ["power-on", "bulb-on"])
              && (b.lastPowerOn != Bool(on) && !on ==> |r.value.1| >= 2 && r.value.1[..2] == ["power-off", "bulb-off"])
              && (b.lastPowerOn == Bool(on) ==> forall e :: e in r.value.1 ==> e == "bulb-change")
              && ("bulb-change" in r.value.1 <==> b.lastLightState != b.lightState)
    ensures r.Ok? ==> var on := Prop(b.lightState, "on_off") == Num(1);
              && |r.value.1| == (if b.lastPowerOn != Bool(on) then 2 else 0) + (if b.lastLightState != b.lightState then 1 else 0)
              && (b.lastLightState != b.lightState ==> r.value.1[|r.value.1| - 1] == "bulb-change")
  {
    var onOff :- Get(b.lightState, "on_off");
    var on := onOff == Num(1);
    var power := if b.lastPowerOn == Bool(on) then [] else if on then ["power-on", "bulb-on"] else ["power-off", "bulb-off"];
    var change := if b.lastLightState != b.lightState then ["bulb-change"] else [];
    Ok((b.(lastPowerOn := Bool(on), lastLightState := b.lightState), power + change))
  }

  /** Once the events for a light state are out, running again reports
      nothing and changes nothing. */
  lemma EmitEventsSettles(b: LibBulb)
    requires EmitEvents(b).Ok?
    ensures EmitEvents(EmitEvents(b).value.0) == Ok((EmitEvents(b).value.0, []))
  {
    var b1 := EmitEvents(b).value.0;
    assert Get(b1.lightState, "on_off") == Ok(Prop(b.lightState, "on_off"));
  }

  /** The `sysInfo` setter: the base setter stores the descriptor and, by
      dynamic dispatch, already runs this class's `emitEvents`; then the
      energy flag is recomputed and the events run a second time. A thrown
      error stops the sequence where it happens. */
  function SetSysinfo(b: LibBulb, si: JsValue): (r: (LibBulb, seq<string>, Option<JsError>))
    ensures r.0.device == LegacyDevice.SetSysinfo(b.device, si).0
    ensures si != Undefined && si != Null ==> r.0.device.supportsConsumption == FeatureHasEnergy(Prop(si, "feature"))
    ensures r.2.None? <==> si != Undefined && si != Null && EmitEvents(b).Ok?
    ensures r.2.None? ==> r.1 == EmitEvents(b).value.1 && r.0 == EmitEvents(b).value.0.(device := r.0.device)
    ensures r.2.Some? ==> r.1 == [] && r.0 == b.(device := r.0.device)
    ensures r.2.Some? && si != Undefined && si != Null ==> r.2 == Some(EmitEvents(b).error)
  {
    var stored := LegacyDevice.SetSysinfo(b.device, si);
    var b1 := b.(device := stored.0);
    if stored.1.Some? then (b1, [], stored.1)
    else
      match EmitEvents(b1)
      case Err(e) => (b1, [], Some(e))
      case Ok(first) =>
        var b2 := first.0.(device := first.0.device.(supportsConsumption := FeatureHasEnergy(Prop(si, "feature"))));
        // The second run reads the same light state as the first, so it
        // cannot fail once the first has succeeded.
        match EmitEvents(b2)
        case Err(e) => assert false; (b2, first.1, Some(e))
        case Ok(second) => (second.0, first.1 + second.1, None)
  }

  /** The `consumption` setter: the reading is stored; events run only when
      the descriptor says the bulb has an energy meter. */
  function SetConsumption(b: LibBulb, reading: JsValue): (r: (LibBulb, seq<string>, Option<JsError>))
    ensures r.0.device == b.device.(consumption := reading)
    ensures !b.device.supportsConsumption ==> r == (b.(device := b.device.(consumption := reading)), [], None)
    ensures b.device.supportsConsumption ==> (r.2.None? <==> EmitEvents(b).Ok?)
    ensures b.device.supportsConsumption && r.2.None? ==>
              (r.0, r.1) == EmitEvents(b.(device := b.device.(consumption := reading))).value
    ensures b.device.supportsConsumption && r.2.Some? ==>
              && r.0 == b.(device := b.device.(consumption := reading)) && r.1 == []
              && r.2 == Some(EmitEvents(b.(device := b.device.(consumption := reading))).error)
  {
    var b1 := b.(device := b.device.(consumption := reading));
    if !b.device.supportsConsumption then (b1, [], None)
    else
      match EmitEvents(b1)
      case Err(e) => (b1, [], Some(e))
      case Ok(done) => (done.0, done.1, None)
  }

  /** With a meter, storing the same reading again reports nothing and
      changes nothing. */
  lemma SetConsumptionSettles(b: LibBulb, reading: JsValue)
    requires b.device.supportsConsumption && SetConsumption(b, reading).2.None?
    ensures var once := SetConsumption(b, reading).0;
            SetConsumption(once, reading) == (once, [], None)
  {
    var b1 := b.(device := b.device.(consumption := reading));
    EmitEventsSettles(b1);
    var once := SetConsumption(b, reading).0;
    assert once.(device := once.device.(consumption := reading)) == once;
  }

  /** How a light request settles: its promise resolves with a value,
      rejects with the whole reply (`throw data`), or rejects with an
      error raised before or during the request. */
  datatype Outcome = Returned(value: JsValue) | ThrewReply(reply: JsValue) | Failed(error: JsError)

  /** The shared tail of `getLightState` and `setLightState` once the reply
      `data` is in: a readable `err_code` of 0 stores the light state and the
      call answers whether it was 0; a reply without a readable code, or a
      non-zero code whose events cannot run, rejects with the reply. */
  function AcceptLightReply(b: LibBulb, data: JsValue, request: string): (r: (LibBulb, Outcome, seq<string>))
    ensures var ls := GetPath(data, LightingService, request);
            var code := if ls.Ok? then Get(ls.value, "err_code") else ls;
            && (code.Ok? && code.value == Num(0) ==>
                  r.1 == Returned(Bool(true)) && r.0.lightState == ls.value)
            && (code.Ok? && code.value != Num(0) ==> r.0.lightState == b.lightState)
            && (code.Ok? && code.value != Num(0) && EmitEvents(b).Ok? ==> r.1 == Returned(Bool(false)))
            && (code.Ok? && code.value != Num(0) && EmitEvents(b).Err? ==> r.1 == ThrewReply(data))
            && (code.Err? ==> r == (b, ThrewReply(data), []))
    ensures var ls := GetPath(data, LightingService, request);
            var code := if ls.Ok? then Get(ls.value, "err_code") else ls;
            var b1 := if code.Ok? && code.value == Num(0) then b.(lightState := ls.value) else b;
            && (code.Ok? && EmitEvents(b1).Ok? ==> (r.0, r.2) == EmitEvents(b1).value)
            && (code.Ok? && EmitEvents(b1).Err? ==> r.0 == b1 && r.2 == [])
  {
    match GetPath(data, LightingService, request)
    case Err(_) => (b, ThrewReply(data), [])
    case Ok(ls) =>
      match Get(ls, "err_code")
      case Err(_) => (b, ThrewReply(data), [])
      case Ok(code) =>
        var b1 := if code == Num(0) then b.(lightState := ls) else b;
        match EmitEvents(b1)
        case Err(_) => if code == Num(0) then (b1, Returned(Undefined), []) else (b1, ThrewReply(data), [])
        case Ok(done) => (done.0, Returned(Bool(code == Num(0))), done.1)
  }

  /** Accepting the same successful reply a second time reports nothing
      and changes nothing. */
  lemma AcceptLightReplySettles(b: LibBulb, data: JsValue, request: string)
    requires var ls := GetPath(data, LightingService, request);
             ls.Ok? && Get(ls.value, "err_code") == Ok(Num(0))
    ensures var once := AcceptLightReply(b, data, request);
            AcceptLightReply(once.0, data, request) == (once.0, Returned(Bool(true)), [])
  {
    var ls := GetPath(data, LightingService, request).value;
    var b1 := b.(lightState := ls);
    EmitEventsSettles(b1);
    var once := AcceptLightReply(b, data, request).0;
    assert once.(lightState := ls) == once;
  }

  /** `getLightState`: a rejected request rejects unchanged. */
  function GetLightState(b: LibBulb, response: Result<JsValue, JsError>): (r: (LibBulb, Outcome, seq<string>))
    ensures response.Err? ==> r == (b, Failed(response.error), [])
    ensures response.Ok? ==> r == AcceptLightReply(b, response.value, "get_light_details")
  {
    match response
    case Err(e) => (b, Failed(e), [])
    case Ok(data) => AcceptLightReply(b, data, "get_light_details")
  }

  /** The `transition_light_state` argument: all eight keys are present;
      `ignore_default` falls back to 1 and `transition_period` to 0 with
      `||`; `colorTemp` is sent as `color_temp`; the rest pass through. */
  function LightPayload(options: JsValue): (r: Result<map<string, JsValue>, JsError>)
    ensures r.Err? <==> options == Undefined || options == Null
    ensures r.Ok? ==> r.value.Keys == {"ignore_default", "on_off", "transition_period", "mode", "hue", "saturation", "brightness", "color_temp"}
    ensures r.Ok? ==> && (Truthy(Prop(options, "ignore_default")) ==> r.value["ignore_default"] == Prop(options, "ignore_default"))
                      && (!Truthy(Prop(options, "ignore_default")) ==> r.value["ignore_default"] == Num(1))
                      && (Truthy(Prop(options, "transition_period")) ==> r.value["transition_period"] == Prop(options, "transition_period"))
                      && (!Truthy(Prop(options, "transition_period")) ==> r.value["transition_period"] == Num(0))
                      && r.value["color_temp"] == Prop(options, "colorTemp")
                      && forall k :: k in ["on_off", "mode", "hue", "saturation", "brightness"] ==> r.value[k] == Prop(options, k)
  {
    var ignore :- Get(options, "ignore_default");
    Ok(map[
      "ignore_default" := Or(ignore, Num(1)),
      "on_off" := Prop(options, "on_off"),
      "transition_period" := Or(Prop(options, "transition_period"), Num(0)),
      "mode" := Prop(options, "mode"),
      "hue" := Prop(options, "hue"),
      "saturation" := Prop(options, "saturation"),
      "brightness" := Prop(options, "brightness"),
      "color_temp" := Prop(options, "colorTemp")])
  }

  /** The request `setLightState` sends. */
  function LightCommand(state: map<string, JsValue>): (c: JsValue)
    ensures GetPath(c, LightingService, "transition_light_state") == Ok(Obj(state))
  {
    Obj(map[LightingService := Obj(map["transition_light_state" := Obj(state)])])
  }

  /** `setLightState(options)`: building the payload from missing options
      rejects before anything is sent; otherwise the command goes out and its
      reply is handled as for `getLightState`. */
  function SetLightState(b: LibBulb, options: JsValue, send: JsValue -> Result<JsValue, JsError>)
    : (r: (LibBulb, Outcome, seq<string>))
    ensures LightPayload(options).Err? ==> r == (b, Failed(LightPayload(options).error), [])
    ensures LightPayload(options).Ok? && send(LightCommand(LightPayload(options).value)).Err? ==>
              r == (b, Failed(send(LightCommand(LightPayload(options).value)).error), [])
    ensures LightPayload(options).Ok? && send(LightCommand(LightPayload(options).value)).Ok? ==>
              r == AcceptLightReply(b, send(LightCommand(LightPayload(options).value)).value, "transition_light_state")
  {
    match LightPayload(options)
    case Err(e) => (b, Failed(e), [])
    case Ok(state) =>
      match send(LightCommand(state))
      case Err(e) => (b, Failed(e), [])
      case Ok(data) => AcceptLightReply(b, data, "transition_light_state")
  }

  /** A first successful reply that switches the bulb on reports the power
      change and the new state, in that order. */
  lemma FirstReplyTurnsOn(d: LibDevice, ls: map<string, JsValue>)
    requires "err_code" in ls && ls["err_code"] == Num(0) && "on_off" in ls && ls["on_off"] == Num(1)
    ensures var data := Obj(map[LightingService := Obj(map["get_light_details" := Obj(ls)])]);
            var r := GetLightState(NewBulb(d), Ok(data));
            r.1 == Returned(Bool(true)) && r.2 == ["power-on", "bulb-on", "bulb-change"] && r.0.lightState == Obj(ls)
  {
    var data := Obj(map[LightingService := Obj(map["get_light_details" := Obj(ls)])]);
    assert GetPath(data, LightingService, "get_light_details") == Ok(Obj(ls));
  }

  /** Before any light state is known an error reply rejects with the reply
      itself, since the events it runs cannot read the missing state. */
  lemma ErrorBeforeStateRejects(d: LibDevice, ls: map<string, JsValue>)
    requires "err_code" in ls && ls["err_code"] == Num(-1)
    ensures var data := Obj(map[LightingService := Obj(map["get_light_details" := Obj(ls)])]);
            GetLightState(NewBulb(d), Ok(data)) == (NewBulb(d), ThrewReply(data), [])
  {
    var data := Obj(map[LightingService := Obj(map["get_light_details" := Obj(ls)])]);
    assert GetPath(data, LightingService, "get_light_details") == Ok(Obj(ls));
  }
}

=== FILE: legacy_device.dfy ===
/** The device base class of `lib/device.js`: its construction defaults,
    the descriptor setter that copies fields out of `get_sysinfo`, the type
    normaliser, the energy-meter feature test and the descriptor request.
    The transport behind `send` is a parameter: a request's answer arrives
    as a value or as a rejection. */
module LegacyDevice {
  import opened Wrappers
  import opened JsValues
  import opened Text
  import opened Sysinfo
  import Discovery

  /** The default port and request timeout of a device. */
  const DefaultPort: int := 9999
  const DefaultTimeout: int := 5000

  datatype LibDevice = LibDevice(
    deviceId: JsValue,
    host: JsValue,
    port: JsValue,
    seen: JsValue,
    timeout: JsValue,
    model: JsValue,
    kind: DeviceKind,
    sysinfo: JsValue,
    consumption: JsValue,
    name: JsValue,
    deviceName: JsValue,
    softwareVersion: JsValue,
    hardwareVersion: JsValue,
    mac: JsValue,
    latitude: JsValue,
    longitude: JsValue,
    supportsConsumption: bool,
    polling: bool)

  /** The `type` setter: the raw plug and bulb type strings and the short
      names map to their kind, anything else is a generic device. */
  function NormalizeType(t: JsValue): (k: DeviceKind)
    ensures k == PlugKind <==> t == Str("IOT.SMARTPLUGSWITCH") || t == Str("plug")
    ensures k == BulbKind <==> t == Str("IOT.SMARTBULB") || t == Str("bulb")
  {
    match t
    case Str("IOT.SMARTPLUGSWITCH") => PlugKind
    case Str("plug") => PlugKind
    case Str("IOT.SMARTBULB") => BulbKind
    case Str("bulb") => BulbKind
    case _ => GenericKind
  }

  /** Storing a normalised name again leaves it unchanged, and on the raw
      types a device reports the setter agrees with the discovery client's
      classifier. */
  lemma NormalizeTypeStable(t: JsValue)
    ensures NormalizeType(Str(NormalizeType(t).Name())) == NormalizeType(t)
    ensures t != Str("plug") && t != Str("bulb") ==> NormalizeType(t) == Discovery.KindFromType(t)
  {
  }

  /** `sysInfo.feature.includes('ENE')`, with the thrown error caught: a
      string is searched for the substring, an array for the element; any
      other value has no `includes` and counts as `false`. */
  function FeatureHasEnergy(feature: JsValue): (r: bool)
    ensures r <==> (feature.Str? && Occurs(feature.s, "ENE", false)) || (feature.Arr? && Str("ENE") in feature.items)
  {
    match feature
    case Str(s) => Includes(s, "ENE")
    case Arr(items) => Str("ENE") in items
    case _ => false
  }

  /** The constructor. An omitted options argument acts as `{}`; `null`
      throws. Port, seen-cycle and timeout fall back with `||`; model is
      `null`, the type setter runs on `null`, and the descriptor and energy
      reading start empty. */
  function NewDevice(options: JsValue): (r: Result<LibDevice, JsError>)
    ensures r.Err? <==> options == Null
    ensures r.Ok? ==> var o := if options == Undefined then Obj(map[]) else options;
                      && r.value.deviceId == Prop(o, "deviceId") && r.value.host == Prop(o, "host")
                      && (Truthy(Prop(o, "port")) ==> r.value.port == Prop(o, "port"))
                      && (!Truthy(Prop(o, "port")) ==> r.value.port == Num(DefaultPort))
                      && (Truthy(Prop(o, "seenOnDiscovery")) ==> r.value.seen == Prop(o, "seenOnDiscovery"))
                      && (!Truthy(Prop(o, "seenOnDiscovery")) ==> r.value.seen == Null)
                      && (Truthy(Prop(o, "timeout")) ==> r.value.timeout == Prop(o, "timeout"))
                      && (!Truthy(Prop(o, "timeout")) ==> r.value.timeout == Num(DefaultTimeout))
                      && r.value.model == Null && r.value.kind == GenericKind
                      && r.value.sysinfo == Obj(map[]) && r.value.consumption == Obj(map[])
                      && !r.value.polling
  {
    var o := if options == Undefined then Obj(map[]) else options;
    if o == Null then Err(TypeError("Cannot read properties of null"))
    else
      Ok(LibDevice(
        Prop(o, "deviceId"), Prop(o, "host"),
        Or(Prop(o, "port"), Num(DefaultPort)),
        Or(Prop(o, "seenOnDiscovery"), Null),
        Or(Prop(o, "timeout"), Num(DefaultTimeout)),
        Null, NormalizeType(Null), Obj(map[]), Obj(map[]),
        Undefined, Undefined, Undefined, Undefined, Undefined, Undefined, Undefined,
        false, false))
  }

  /** The number the offline scan subtracts: `null` coerces to 0. */
  function SeenNumber(seen: JsValue): int
    requires seen.Null? || seen.Num?
  {
    if seen.Num? then seen.n else 0
  }

  /** A plug first seen on cycle 0 stores `0 || null`, that is `null`; the
      scan's subtraction still reads it as cycle 0, so storing the counter as
      an integer loses nothing. */
  lemma SeenCoercesToCounter(counter: int)
    ensures var seen := Or(Num(counter), Null);
            (seen.Null? || seen.Num?) && SeenNumber(seen) == counter
  {
  }

  /** The `sysInfo` setter. The descriptor is stored first; reading its
      fields throws when it is `undefined` or `null`, leaving everything else
      as it was. Otherwise the named fields are copied, the type normalised
      and the energy-meter flag recomputed; address, port, timers and the
      last reading are untouched. */
  function SetSysinfo(d: LibDevice, si: JsValue): (r: (LibDevice, Option<JsError>))
    ensures r.0.sysinfo == si
    ensures r.1.Some? <==> si == Undefined || si == Null
    ensures r.1.Some? ==> r.0 == d.(sysinfo := si)
    ensures r.1.None? ==>
              && r.0.name == Prop(si, "alias") && r.0.deviceId == Prop(si, "deviceId")
              && r.0.deviceName == Prop(si, "dev_name") && r.0.model == Prop(si, "model")
              && r.0.kind == NormalizeType(Or(Prop(si, "type"), Prop(si, "mic_type")))
              && r.0.softwareVersion == Prop(si, "sw_ver") && r.0.hardwareVersion == Prop(si, "hw_ver")
              && r.0.mac == Prop(si, "mac")
              && r.0.latitude == Prop(si, "latitude") && r.0.longitude == Prop(si, "longitude")
              && r.0.supportsConsumption == FeatureHasEnergy(Prop(si, "feature"))
    ensures r.0.host == d.host && r.0.port == d.port && r.0.seen == d.seen && r.0.timeout == d.timeout
    ensures r.0.consumption == d.consumption && r.0.polling == d.polling
  {
    if si == Undefined || si == Null then (d.(sysinfo := si), Some(TypeError("Cannot read properties of the descriptor")))
    else
      (d.(sysinfo := si,
          name := Prop(si, "alias"),
          deviceId := Prop(si, "deviceId"),
          deviceName := Prop(si, "dev_name"),
          model := Prop(si, "model"),
          kind := NormalizeType(Or(Prop(si, "type"), Prop(si, "mic_type"))),
          softwareVersion := Prop(si, "sw_ver"),
          hardwareVersion := Prop(si, "hw_ver"),
          mac := Prop(si, "mac"),
          latitude := Prop(si, "latitude"),
          longitude := Prop(si, "longitude"),
          supportsConsumption := FeatureHasEnergy(Prop(si, "feature"))),
       None)
  }

  /** Storing the same descriptor twice is the same as storing it once, and
      what is stored depends only on the descriptor, not on the device it
      was stored into (beyond address, timers and the energy reading). */
  lemma SetSysinfoIdempotent(d: LibDevice, e: LibDevice, si: JsValue)
    requires si != Undefined && si != Null
    ensures SetSysinfo(SetSysinfo(d, si).0, si) == SetSysinfo(d, si)
    ensures e.host == d.host && e.port == d.port && e.seen == d.seen && e.timeout == d.timeout
            && e.consumption == d.consumption && e.polling == d.polling
            ==> SetSysinfo(e, si).0 == SetSysinfo(d, si).0
  {
  }

  /** `getSysInfo`: send the descriptor request; a rejected request, a reply
      without `system` and a missing descriptor all reject; otherwise the
      descriptor is stored and returned. */
  function GetSysInfo(d: LibDevice, response: Result<JsValue, JsError>): (r: (LibDevice, Result<JsValue, JsError>))
    ensures response.Err? ==> r == (d, Err(response.error))
    ensures r.1.Ok? <==> response.Ok? && GetPath(response.value, "system", "get_sysinfo").Ok?
                         && GetPath(response.value, "system", "get_sysinfo").value != Undefined
                         && GetPath(response.value, "system", "get_sysinfo").value != Null
    ensures r.1.Ok? ==> r.1.value == GetPath(response.value, "system", "get_sysinfo").value
                        && r.0 == SetSysinfo(d, r.1.value).0 && r.0.sysinfo == r.1.value
    ensures response.Ok? && r.1.Err? ==>
              var si := GetPath(response.value, "system", "get_sysinfo");
              r.0 == (if si.Ok? then SetSysinfo(d, si.value).0 else d)
  {
    match response
    case Err(e) => (d, Err(e))
    case Ok(data) =>
      match GetPath(data, "system", "get_sysinfo")
      case Err(e) => (d, Err(e))
      case Ok(si) =>
        var stored := SetSysinfo(d, si);
        if stored.1.Some? then (stored.0, Err(stored.1.value)) else (stored.0, Ok(stored.0.sysinfo))
  }

  /** `getModel`: the model field of the freshly read descriptor, which the
      device now also holds. */
  function GetModel(d: LibDevice, response: Result<JsValue, JsError>): (r: (LibDevice, Result<JsValue, JsError>))
    ensures r.0 == GetSysInfo(d, response).0
    ensures r.1.Ok? <==> GetSysInfo(d, response).1.Ok?
    ensures r.1.Err? ==> r.1 == GetSysInfo(d, response).1
    ensures r.1.Ok? ==> r.1.value == Prop(GetSysInfo(d, response).1.value, "model") && r.0.model == r.1.value
  {
    var got := GetSysInfo(d, response);
    match got.1
    case Err(e) => (got.0, Err(e))
    case Ok(si) => (got.0, Ok(Prop(si, "model")))
  }

  /** `stopPolling`: only the polling timer changes. */
  function StopPolling(d: LibDevice): (r: LibDevice)
    ensures !r.polling && r.(polling := d.polling) == d
  {
    d.(polling := false)
  }
}

=== FILE: legacy_discovery.dfy ===
/** The older discovery client of `lib/client.js`. It differs from
    `src/client.js` in its option defaults (`||`, so falsy values fall back
    too), in filtering on the raw type string with a plug-only default, in
    reading the energy meter from every reply, in its `plug-` event names
    and in `startDiscovery`, which loses its targets (see
    `StartDiscoveryAsWritten`). */
module LegacyDiscovery {
  import opened Wrappers
  import opened JsValues
  import opened Presence
  import opened Sequence
  import opened Discovery

  /** The constructor options; `None` is `undefined`. */
  datatype LibOptions = LibOptions(
    broadcast: Option<string>,
    discoveryInterval: Option<int>,
    discoveryTimeout: Option<int>,
    offlineTolerance: Option<int>,
    deviceTypes: Option<seq<JsValue>>)

  datatype LibConfig = LibConfig(broadcast: string, interval: int, timeout: int, tolerance: int, deviceTypes: seq<JsValue>)

  /** The plug class's raw type string, the default filter. */
  const PlugType: JsValue := Str("IOT.SMARTPLUGSWITCH")

  /** A registered plug keeps its last energy reading beside the descriptor. */
  datatype LibClient = LibClient(registry: Registry<JsValue>, counter: int, timerSet: bool, socketOpen: bool, config: LibConfig)

  ghost predicate LibValid(c: LibClient) {
    Valid(c.registry) && 0 <= c.counter <= MaxSafeInteger
  }

  /** An explicit target; its port has no default here. */
  datatype LibTarget = LibTarget(host: string, port: int)

  /** `options.x || default` for each setting: a missing, empty or zero
      value all fall back. */
  function ConfigFrom(o: LibOptions): (cfg: LibConfig)
    ensures o.offlineTolerance.Some? && o.offlineTolerance.value != 0 ==> cfg.tolerance == o.offlineTolerance.value
    ensures o.offlineTolerance.None? || o.offlineTolerance.value == 0 ==> cfg.tolerance == DefaultTolerance
    ensures o.broadcast.Some? && o.broadcast.value != "" ==> cfg.broadcast == o.broadcast.value
    ensures o.broadcast.None? || o.broadcast.value == "" ==> cfg.broadcast == DefaultBroadcast
    ensures o.discoveryInterval.Some? && o.discoveryInterval.value != 0 ==> cfg.interval == o.discoveryInterval.value
    ensures o.discoveryInterval.None? || o.discoveryInterval.value == 0 ==> cfg.interval == DefaultInterval
    ensures o.discoveryTimeout.Some? && o.discoveryTimeout.value != 0 ==> cfg.timeout == o.discoveryTimeout.value
    ensures o.discoveryTimeout.None? || o.discoveryTimeout.value == 0 ==> cfg.timeout == DefaultTimeout
    ensures o.deviceTypes.Some? ==> cfg.deviceTypes == o.deviceTypes.value
    ensures o.deviceTypes.None? ==> cfg.deviceTypes == [PlugType]
  {
    LibConfig(
      if o.broadcast.Some? && o.broadcast.value != "" then o.broadcast.value else DefaultBroadcast,
      if o.discoveryInterval.Some? && o.discoveryInterval.value != 0 then o.discoveryInterval.value else DefaultInterval,
      if o.discoveryTimeout.Some? && o.discoveryTimeout.value != 0 then o.discoveryTimeout.value else DefaultTimeout,
      if o.offlineTolerance.Some? && o.offlineTolerance.value != 0 then o.offlineTolerance.value else DefaultTolerance,
      o.deviceTypes.GetOr([PlugType]))
  }

  /** The two clients resolve an explicit zero tolerance differently: the
      older one falls back to 3, the newer keeps 0 (every device not heard
      in the current cycle goes offline). */
  lemma ZeroToleranceDiffers(o: DiscoveryOptions, l: LibOptions)
    requires o.offlineTolerance == Some(0) && l.offlineTolerance == Some(0)
    ensures SessionFrom(o).tolerance == 0 && ConfigFrom(l).tolerance == DefaultTolerance
  {
  }

  /** The constructor: no devices, counter 0, the socket bound, no timer. */
  function NewLibClient(o: LibOptions): (c: LibClient)
    ensures LibValid(c) && c.registry.devices == map[] && c.counter == 0
    ensures c.socketOpen && !c.timerSet && c.config == ConfigFrom(o)
  {
    LibClient(EmptyRegistry(), 0, false, true, ConfigFrom(o))
  }

  function LibProbes(targets: seq<LibTarget>): (r: seq<Effect>)
    ensures |r| == |targets|
    ensures forall i :: 0 <= i < |targets| ==> r[i] == Send(Probe(targets[i].host, targets[i].port))
  {
    if targets == [] then [] else [Send(Probe(targets[0].host, targets[0].port))] + LibProbes(targets[1..])
  }

  /** `sendDiscovery(timeout, devices)`: the offline scan with the
      configured tolerance, reported as `plug-offline`, then the broadcast
      probe to the configured address, then the targets; the counter steps.
      Once `stopDiscovery` has closed the socket, the scan still runs and
      reports, but the broadcast send throws the socket's not-running error,
      so no probe goes out and the counter stays. The third component is
      the error the call throws, if any. */
  function LibSendDiscovery(c: LibClient, devices: Option<seq<LibTarget>>): (r: (LibClient, seq<Effect>, Option<JsError>))
    requires LibValid(c)
    ensures LibValid(r.0) && r.0.config == c.config && Scanned(c.registry, r.0.registry, c.counter, c.config.tolerance)
    ensures r.0.timerSet == c.timerSet && r.0.socketOpen == c.socketOpen
    ensures c.socketOpen <==> r.2.None?
    ensures r.2.Some? ==> r.2.value == SocketNotRunning
    ensures c.socketOpen ==> r.0.counter == NextSequence(c.counter)
    ensures !c.socketOpen ==> r.0.counter == c.counter
    ensures c.socketOpen ==>
              CycleShape(r.1, StaleKeys(c.registry.devices, c.registry.order, c.counter, c.config.tolerance), "plug-offline",
                         Probe(c.config.broadcast, DevicePort), LibProbes(devices.GetOr([])))
    ensures !c.socketOpen ==>
              r.1 == OfflineEvents(StaleKeys(c.registry.devices, c.registry.order, c.counter, c.config.tolerance), "plug-offline")
    ensures forall k :: Emit(Event("plug-offline", k)) in r.1 <==>
              k in c.registry.devices && Stale(c.registry.devices[k], c.counter, c.config.tolerance)
  {
    var scanned := ScanRegistry(c.registry, c.counter, c.config.tolerance);
    if c.socketOpen then
      (c.(registry := scanned.0, counter := NextSequence(c.counter)),
       CycleEffects(scanned.1, "plug-offline", Probe(c.config.broadcast, DevicePort), LibProbes(devices.GetOr([]))),
       None)
    else
      CycleEmits(scanned.1, [], "plug-offline");
      assert OfflineEvents(scanned.1, "plug-offline") + [] == OfflineEvents(scanned.1, "plug-offline");
      (c.(registry := scanned.0), OfflineEvents(scanned.1, "plug-offline"), Some(SocketNotRunning))
  }

  /** `startDiscovery(discoveryInterval, discoveryTimeout, devices)` as
      written: the cycles call `sendDiscovery(devices)`, which binds the
      targets to the `timeout` parameter, so only the broadcast goes out.
      The timer is armed before the first cycle runs, so it stays armed
      when that cycle throws. The result also carries the interval the
      timer is armed with. */
  function StartDiscoveryAsWritten(c: LibClient, interval: Option<int>, devices: Option<seq<LibTarget>>)
    : (r: (LibClient, int, seq<Effect>, Option<JsError>))
    requires LibValid(c)
    ensures LibValid(r.0) && r.0.timerSet
    ensures r.1 == interval.GetOr(c.config.interval)
    ensures var cycle := LibSendDiscovery(c, None);
            r.0 == cycle.0.(timerSet := true) && r.2 == cycle.1 && r.3 == cycle.2
    ensures !c.socketOpen ==> r.3 == Some(SocketNotRunning)
  {
    var step := LibSendDiscovery(c, None);
    (step.0.(timerSet := true), interval.GetOr(c.config.interval), step.1, step.2)
  }

  /** `startDiscovery` as evidently intended: the cycles probe the targets. */
  function StartDiscovery(c: LibClient, interval: Option<int>, devices: Option<seq<LibTarget>>)
    : (r: (LibClient, int, seq<Effect>, Option<JsError>))
    requires LibValid(c)
    ensures LibValid(r.0) && r.0.timerSet
    ensures r.1 == interval.GetOr(c.config.interval)
    ensures var cycle := LibSendDiscovery(c, devices);
            r.0 == cycle.0.(timerSet := true) && r.2 == cycle.1 && r.3 == cycle.2
    ensures !c.socketOpen ==> r.3 == Some(SocketNotRunning)
  {
    var step := LibSendDiscovery(c, devices);
    (step.0.(timerSet := true), interval.GetOr(c.config.interval), step.1, step.2)
  }

  /** Restarting after `stopDiscovery` throws: the registry is still
      scanned and stale plugs are still reported, but no probe is sent and
      the counter does not step. */
  lemma RestartAfterStopThrows(c: LibClient, interval: Option<int>, devices: Option<seq<LibTarget>>)
    requires LibValid(c) && c.socketOpen
    ensures var stopped := LibStopDiscovery(c).0;
            var r := StartDiscovery(stopped, interval, devices);
            && r.3 == Some(SocketNotRunning)
            && r.0.counter == c.counter
            && forall i :: 0 <= i < |r.2| ==> r.2[i].Emit?
  {
    var stopped := LibStopDiscovery(c).0;
    var stale := StaleKeys(stopped.registry.devices, stopped.registry.order, stopped.counter, stopped.config.tolerance);
    assert StartDiscovery(stopped, interval, devices).2 == OfflineEvents(stale, "plug-offline");
  }

  /** With targets given, the written `startDiscovery` never probes them:
      its cycle sends exactly one probe, to the broadcast address, while the
      intended one sends one more per target. */
  lemma StartDiscoveryDropsTargets(c: LibClient, interval: Option<int>, ts: seq<LibTarget>)
    requires LibValid(c) && c.socketOpen && |ts| > 0
    ensures var stale := StaleKeys(c.registry.devices, c.registry.order, c.counter, c.config.tolerance);
            && |StartDiscoveryAsWritten(c, interval, Some(ts)).2| == |stale| + 1
            && |StartDiscovery(c, interval, Some(ts)).2| == |stale| + 1 + |ts|
            && StartDiscoveryAsWritten(c, interval, Some(ts)).2 != StartDiscovery(c, interval, Some(ts)).2
  {
  }

  /** `stopDiscovery`: clears the timer, then closes the socket
      unconditionally, so a second call raises the socket's not-running
      error, after the timer is already cleared. The second component is the
      error the call throws, if any. */
  function LibStopDiscovery(c: LibClient): (r: (LibClient, Option<JsError>))
    ensures r.0 == c.(timerSet := false, socketOpen := false)
    ensures c.socketOpen <==> r.1.None?
    ensures r.1.Some? ==> r.1.value == SocketNotRunning
  {
    (c.(timerSet := false, socketOpen := false), if c.socketOpen then None else Some(SocketNotRunning))
  }

  /** Stopping twice fails the second time, and a stop disarms the timer
      even when it fails, so stopping after a failed restart leaves no
      timer running. */
  lemma StopTwiceFails(c: LibClient, interval: Option<int>, devices: Option<seq<LibTarget>>)
    requires LibValid(c) && c.socketOpen
    ensures LibStopDiscovery(c).1.None?
    ensures LibStopDiscovery(LibStopDiscovery(c).0).1 == Some(SocketNotRunning)
    ensures var restarted := StartDiscovery(LibStopDiscovery(c).0, interval, devices).0;
            restarted.timerSet && !LibStopDiscovery(restarted).0.timerSet && LibStopDiscovery(restarted).1.Some?
  {
  }

  /** The `message` handler: both `system.get_sysinfo` and
      `emeter.get_realtime` are read (either path missing throws); the raw
      type must be in the configured list; a known plug is refreshed with the
      new address, descriptor and reading and reported `plug-online`, an
      unknown one is added and reported `plug-new`. */
  function LibHandleReply(c: LibClient, reply: Reply, host: string, port: int)
    : (r: Result<(LibClient, seq<Event>), JsError>)
    requires LibValid(c)
    ensures reply.Unparseable? ==> r == Ok((c, []))
    ensures r.Ok? ==> LibValid(r.value.0) && r.value.0.counter == c.counter && r.value.0.config == c.config
                      && r.value.0.timerSet == c.timerSet && r.value.0.socketOpen == c.socketOpen
    ensures r.Ok? && r.value.1 == [] ==> r.value.0 == c
    ensures reply.Parsed? ==>
              (r.Err? <==> || GetPath(reply.json, "system", "get_sysinfo").Err?
                           || GetPath(reply.json, "emeter", "get_realtime").Err?
                           || RawType(GetPath(reply.json, "system", "get_sysinfo").value).Err?)
    ensures reply.Parsed? && r.Ok? ==>
              var si := GetPath(reply.json, "system", "get_sysinfo").value;
              var power := GetPath(reply.json, "emeter", "get_realtime").value;
              var id := Get(si, "deviceId").value;
              var reg := c.registry;
              && (RawType(si).value !in c.config.deviceTypes ==> r.value == (c, []))
              && (RawType(si).value in c.config.deviceTypes && id in reg.devices ==>
                    && r.value.1 == [Event("plug-online", id)]
                    && r.value.0.registry.devices.Keys == reg.devices.Keys && r.value.0.registry.order == reg.order
                    && r.value.0.registry.devices[id] == Record(host, port, si, Online, c.counter, power)
                    && (forall k :: k in reg.devices && k != id ==> r.value.0.registry.devices[k] == reg.devices[k]))
              && (RawType(si).value in c.config.deviceTypes && id !in reg.devices ==>
                    && r.value.1 == [Event("plug-new", id)]
                    && r.value.0.registry.devices.Keys == reg.devices.Keys + {id} && r.value.0.registry.order == reg.order + [id]
                    && r.value.0.registry.devices[id] == Record(host, port, si, Online, c.counter, power)
                    && (forall k :: k in reg.devices ==> r.value.0.registry.devices[k] == reg.devices[k]))
  {
    match reply
    case Unparseable => Ok((c, []))
    case Parsed(json) =>
      var si :- GetPath(json, "system", "get_sysinfo");
      var power :- GetPath(json, "emeter", "get_realtime");
      var t :- RawType(si);
      if t !in c.config.deviceTypes then Ok((c, []))
      else
        var id := Prop(si, "deviceId");
        if id in c.registry.devices then
          Ok((c.(registry := Refresh(c.registry, id, host, port, si, c.counter, power)), [Event("plug-online", id)]))
        else
          Ok((c.(registry := Insert(c.registry, id, Record(host, port, si, Online, c.counter, power))),
              [Event("plug-new", id)]))
  }

  /** With the default filter a bulb's reply is ignored, while the newer
      client with no filter registers it. */
  lemma DefaultFilterIgnoresBulbs(c: LibClient, si: map<string, JsValue>, host: string, port: int)
    requires LibValid(c) && c.config.deviceTypes == [PlugType]
    requires "type" in si && si["type"] == Str("IOT.SMARTBULB")
    ensures var reply := Parsed(Obj(map["system" := Obj(map["get_sysinfo" := Obj(si)]),
                                        "emeter" := Obj(map["get_realtime" := Obj(map[])])]));
            LibHandleReply(c, reply, host, port) == Ok((c, []))
  {
    var reply := Parsed(Obj(map["system" := Obj(map["get_sysinfo" := Obj(si)]),
                                "emeter" := Obj(map["get_realtime" := Obj(map[])])]));
    assert GetPath(reply.json, "system", "get_sysinfo") == Ok(Obj(si));
    assert RawType(Obj(si)) == Ok(Str("IOT.SMARTBULB"));
  }
}

=== FILE: lighting.dfy ===
/** The lighting module of `src/bulb/lighting.ts`: the cached light state,
    the events a new light state triggers, and the two requests that fetch
    or change it. The device's command channel is a parameter `send` from
    the transmitted command object to the settled reply. */
module Lighting {
  import opened Wrappers
  import opened JsValues
  import opened Command
  import LegacyBulb

  /** The cached light state and what the last emission saw. Equality of
      light states is structural, as with a deep comparison. */
  datatype LightingState = LightingState(lightState: JsValue, lastPowerOn: JsValue, lastLightState: JsValue)

  datatype LightEvent = LightEvent(name: string, value: JsValue)

  /** The constructor: an empty cached state and nothing seen yet. */
  function NewLighting(): (s: LightingState)
    ensures s.lightState == Obj(map[]) && s.lastPowerOn == Null && s.lastLightState == Null
  {
    LightingState(Obj(map[]), Null, Null)
  }

  /** Whether a light state reports the bulb on (`on_off === 1`). */
  predicate PowerOn(ls: JsValue) {
    Prop(ls, "on_off") == Num(1)
  }

  /** `emitEvents`. A falsy light state emits nothing. Otherwise, in order:
      `lightstate-on` or `lightstate-off` when the power state differs from
      the last one seen, `lightstate-change` when the state differs from the
      last one seen, and always `lightstate-update`; every event carries the
      current state. */
  function EmitEvents(s: LightingState): (r: (LightingState, seq<LightEvent>))
    ensures !Truthy(s.lightState) ==> r == (s, [])
    ensures Truthy(s.lightState) ==>
              && r.0 == s.(lastPowerOn := Bool(PowerOn(s.lightState)), lastLightState := s.lightState)
              && |r.1| >= 1 && r.1[|r.1| - 1] == LightEvent("lightstate-update", s.lightState)
              && (forall e :: e in r.1 ==> e.value == s.lightState)
              && (LightEvent("lightstate-change", s.lightState) in r.1 <==> s.lastLightState != s.lightState)
              && (LightEvent("lightstate-on", s.lightState) in r.1 <==>
                    s.lastPowerOn != Bool(PowerOn(s.lightState)) && PowerOn(s.lightState))
              && (LightEvent("lightstate-off", s.lightState) in r.1 <==>
                    s.lastPowerOn != Bool(PowerOn(s.lightState)) && !PowerOn(s.lightState))
    ensures Truthy(s.lightState) ==>
              var powerChanged := s.lastPowerOn != Bool(PowerOn(s.lightState));
              var stateChanged := s.lastLightState != s.lightState;
              && |r.1| == (if powerChanged then 1 else 0) + (if stateChanged then 1 else 0) + 1
              && (powerChanged ==> r.1[0].name == (if PowerOn(s.lightState) then "lightstate-on" else "lightstate-off"))
              && (stateChanged ==> r.1[|r.1| - 2].name == "lightstate-change")
  {
    if !Truthy(s.lightState) then (s, [])
    else
      var ls := s.lightState;
      var on := PowerOn(ls);
      var power := if s.lastPowerOn == Bool(on) then []
                   else if on then [LightEvent("lightstate-on", ls)] else [LightEvent("lightstate-off", ls)];
      var change := if s.lastLightState != ls then [LightEvent("lightstate-change", ls)] else [];
      (s.(lastPowerOn := Bool(on), lastLightState := ls), power + change + [LightEvent("lightstate-update", ls)])
  }

  /** Emitting again with nothing new reports only the update. */
  lemma EmitTwiceOnlyUpdates(s: LightingState)
    requires Truthy(s.lightState)
    ensures EmitEvents(EmitEvents(s).0) == (EmitEvents(s).0, [LightEvent("lightstate-update", s.lightState)])
  {
    var s1 := EmitEvents(s).0;
    assert s1.lastPowerOn == Bool(PowerOn(s1.lightState)) && s1.lastLightState == s1.lightState;
    assert [] + [] + [LightEvent("lightstate-update", s.lightState)] == [LightEvent("lightstate-update", s.lightState)];
  }

  /** The first light state after construction reports the power state,
      the change and the update, in that order. */
  lemma FirstStateReportsAll(ls: JsValue)
    requires Truthy(ls)
    ensures var name := if PowerOn(ls) then "lightstate-on" else "lightstate-off";
            EmitEvents(NewLighting().(lightState := ls)).1
              == [LightEvent(name, ls), LightEvent("lightstate-change", ls), LightEvent("lightstate-update", ls)]
  {
  }

  /** The `lightState` setter: store, then emit. */
  function StoreLightState(s: LightingState, ls: JsValue): (r: (LightingState, seq<LightEvent>))
    ensures r == EmitEvents(s.(lightState := ls))
    ensures r.0.lightState == ls
    ensures Truthy(ls) ==> |r.1| >= 1 && r.1[|r.1| - 1] == LightEvent("lightstate-update", ls)
    ensures !Truthy(ls) ==> r == (s.(lightState := ls), [])
  {
    EmitEvents(s.(lightState := ls))
  }

  /** Storing the same state a second time reports only the update and
      changes nothing. */
  lemma StoreTwiceOnlyUpdates(s: LightingState, ls: JsValue)
    requires Truthy(ls)
    ensures var once := StoreLightState(s, ls).0;
            StoreLightState(once, ls) == (once, [LightEvent("lightstate-update", ls)])
  {
    EmitTwiceOnlyUpdates(s.(lightState := ls));
    var once := StoreLightState(s, ls).0;
    assert once.(lightState := ls) == once;
  }

  /** The request object `{[module]: {[method]: arg}}`. */
  function Request(apiModuleName: string, request: string, arg: map<string, JsValue>): (c: map<string, JsValue>)
    ensures c.Keys == {apiModuleName} && c[apiModuleName] == Obj(map[request := Obj(arg)])
  {
    map[apiModuleName := Obj(map[request := Obj(arg)])]
  }

  /** Both requests pass `null` child ids, so the command goes out without
      a child context even from a child device. */
  lemma LightRequestsCarryNoContext(apiModuleName: string, request: string, arg: map<string, JsValue>,
                                    deviceId: JsValue, ownChildId: Option<string>)
    ensures WithChildContext(Request(apiModuleName, request, arg), deviceId, NullIds, ownChildId)
            == Request(apiModuleName, request, arg)
  {
  }

  /** `getLightState`: a rejected request rejects with the state
      unchanged; otherwise the reply becomes the cached state (with its
      events) and is returned. */
  function GetLightState(s: LightingState, apiModuleName: string, deviceId: JsValue, ownChildId: Option<string>,
                         send: map<string, JsValue> -> Result<JsValue, JsError>)
    : (r: (LightingState, Result<JsValue, JsError>, seq<LightEvent>))
    ensures var reply := send(Request(apiModuleName, "get_light_state", map[]));
            && (reply.Err? ==> r == (s, reply, []))
            && (reply.Ok? ==> r.1 == reply && r.0.lightState == reply.value
                              && (r.0, r.2) == StoreLightState(s, reply.value))
  {
    var cmd := WithChildContext(Request(apiModuleName, "get_light_state", map[]), deviceId, NullIds, ownChildId);
    LightRequestsCarryNoContext(apiModuleName, "get_light_state", map[], deviceId, ownChildId);
    match send(cmd)
    case Err(e) => (s, Err(e), [])
    case Ok(v) =>
      var stored := StoreLightState(s, v);
      (stored.0, Ok(v), stored.1)
  }

  /** The eight light-state parameters, with their wire names. */
  const LightKeys: set<string> := {"ignore_default", "transition_period", "on_off", "mode", "hue", "saturation", "brightness", "color_temp"}

  /** `b ? 1 : 0`. */
  function Flag(v: JsValue): (r: JsValue)
    ensures r == Num(1) || r == Num(0)
    ensures r == Num(1) <==> Truthy(v)
  {
    if Truthy(v) then Num(1) else Num(0)
  }

  /** The `transition_light_state` argument `setLightState` builds from its
      options object (which must not be missing): `ignore_default` is always
      sent, as 1 or 0, and defaults to true; `on_off` is sent as 1 or 0 when
      given; the other parameters are sent as given, and only when given. */
  function LightPayload(options: JsValue): (r: Result<map<string, JsValue>, JsError>)
    ensures r.Err? <==> options == Undefined || options == Null
    ensures r.Ok? ==> r.value.Keys <= LightKeys && "ignore_default" in r.value
    ensures r.Ok? ==> r.value["ignore_default"] == Num(if Prop(options, "ignore_default") == Undefined || Truthy(Prop(options, "ignore_default")) then 1 else 0)
    ensures r.Ok? ==> ("on_off" in r.value <==> Prop(options, "on_off") != Undefined)
                      && ("on_off" in r.value ==> r.value["on_off"] == Flag(Prop(options, "on_off")))
    ensures r.Ok? ==> forall k :: k in LightKeys && k != "ignore_default" && k != "on_off" ==>
                        (k in r.value <==> Prop(options, k) != Undefined)
                        && (k in r.value ==> r.value[k] == Prop(options, k))
  {
    if options == Undefined || options == Null then Err(TypeError("Cannot destructure the options"))
    else Ok(map k | k in LightKeys && WireValue(options, k) != Undefined :: WireValue(options, k))
  }

  /** What parameter `k` of the options becomes on the wire (`undefined`:
      not sent). */
  function WireValue(options: JsValue, k: string): JsValue {
    var v := Prop(options, k);
    if k == "ignore_default" then Flag(if v == Undefined then Bool(true) else v)
    else if k == "on_off" then (if v == Undefined then Undefined else Flag(v))
    else v
  }

  /** `setLightState`: missing options reject before anything is sent; a
      rejected request rejects with the state unchanged; otherwise the reply
      becomes the cached state and the call answers `true`. */
  function SetLightState(s: LightingState, options: JsValue, apiModuleName: string, deviceId: JsValue,
                         ownChildId: Option<string>, send: map<string, JsValue> -> Result<JsValue, JsError>)
    : (r: (LightingState, Result<JsValue, JsError>, seq<LightEvent>))
    ensures LightPayload(options).Err? ==> r == (s, Err(LightPayload(options).error), [])
    ensures LightPayload(options).Ok? ==>
              var reply := send(Request(apiModuleName, "transition_light_state", LightPayload(options).value));
              && (reply.Err? ==> r == (s, reply, []))
              && (reply.Ok? ==> r.1 == Ok(Bool(true)) && (r.0, r.2) == StoreLightState(s, reply.value))
  {
    match LightPayload(options)
    case Err(e) => (s, Err(e), [])
    case Ok(state) =>
      var cmd := WithChildContext(Request(apiModuleName, "transition_light_state", state), deviceId, NullIds, ownChildId);
      LightRequestsCarryNoContext(apiModuleName, "transition_light_state", state, deviceId, ownChildId);
      match send(cmd)
      case Err(e) => (s, Err(e), [])
      case Ok(v) =>
        var stored := StoreLightState(s, v);
        (stored.0, Ok(Bool(true)), stored.1)
  }

  /** The two bulb implementations encode the same options differently: an
      explicit `ignore_default: false` is sent as 1 by the older class
      (`false || 1`) and as 0 here. An unset `on_off` is a present but
      undefined key in the older class's payload object and an absent key
      here; serialisation drops undefined-valued keys, so neither request
      carries it. */
  lemma PayloadsDiffer()
    ensures var o := Obj(map["ignore_default" := Bool(false)]);
            && LegacyBulb.LightPayload(o).value["ignore_default"] == Num(1)
            && LightPayload(o).value["ignore_default"] == Num(0)
            && "on_off" in LegacyBulb.LightPayload(o).value && "on_off" !in LightPayload(o).value
  {
    var o := Obj(map["ignore_default" := Bool(false)]);
    assert Prop(o, "ignore_default") == Bool(false);
    assert Prop(o, "on_off") == Undefined;
  }
}

=== FILE: presence.dfy ===
/** The device registry both discovery clients keep: a JavaScript `Map`
    from device id to a device record, visited in insertion order, and the
    offline scan that runs before every discovery broadcast. */
module Presence {
  import opened JsValues

  datatype Status = Online | Offline

  /** What the registry knows of one device. `extra` is the per-client
      payload: the device class in one client, the last energy reading in
      the other. */
  datatype Record<X> = Record(host: string, port: int, sysinfo: JsValue, status: Status, seen: int, extra: X)

  /** The entries, and the keys in the order they were first inserted. */
  datatype Registry<X> = Registry(devices: map<JsValue, Record<X>>, order: seq<JsValue>)

  predicate NoDuplicates(keys: seq<JsValue>) {
    forall i, j :: 0 <= i < j < |keys| ==> keys[i] != keys[j]
  }

  /** The insertion order lists every key exactly once. */
  ghost predicate Valid<X>(r: Registry<X>) {
    NoDuplicates(r.order) && (forall k :: k in r.devices <==> k in r.order)
  }

  function EmptyRegistry<X>(): (r: Registry<X>)
    ensures Valid(r) && r.devices == map[]
  {
    Registry(map[], [])
  }

  /** A device still counted as present that has missed `tolerance` or more
      discovery cycles. */
  predicate Stale<X>(d: Record<X>, counter: int, tolerance: int) {
    d.status != Offline && counter - d.seen >= tolerance
  }

  function MarkIfStale<X>(d: Record<X>, counter: int, tolerance: int): Record<X> {
    if Stale(d, counter, tolerance) then d.(status := Offline) else d
  }

  /** Reference: the stale keys of `keys`, in order. */
  ghost function StaleKeys<X>(devices: map<JsValue, Record<X>>, keys: seq<JsValue>, counter: int, tolerance: int): seq<JsValue>
    requires forall k :: k in keys ==> k in devices
  {
    if keys == [] then []
    else (if Stale(devices[keys[0]], counter, tolerance) then [keys[0]] else [])
         + StaleKeys(devices, keys[1..], counter, tolerance)
  }

  /** The offline scan over `keys`, in order: every stale device becomes
      offline and is reported; every other record, including devices that
      are already offline, is left exactly as it was. */
  function ScanOffline<X>(devices: map<JsValue, Record<X>>, keys: seq<JsValue>, counter: int, tolerance: int)
    : (r: (map<JsValue, Record<X>>, seq<JsValue>))
    requires NoDuplicates(keys)
    requires forall k :: k in keys ==> k in devices
    ensures r.0.Keys == devices.Keys
    ensures forall k :: k in devices && k !in keys ==> r.0[k] == devices[k]
    ensures forall k :: k in keys ==> r.0[k] == MarkIfStale(devices[k], counter, tolerance)
    ensures r.1 == StaleKeys(devices, keys, counter, tolerance)
  {
    if keys == [] then (devices, [])
    else
      var k := keys[0];
      var d := devices[k];
      var updated := devices[k := MarkIfStale(d, counter, tolerance)];
      var reported := if Stale(d, counter, tolerance) then [k] else [];
      assert forall j :: j in keys[1..] ==> j != k && j in keys by {
        forall j | j in keys[1..] ensures j != k && j in keys {
          var i :| 0 <= i < |keys[1..]| && keys[1..][i] == j;
          assert keys[i + 1] == j;
        }
      }
      assert NoDuplicates(keys[1..]) by {
        forall i, j | 0 <= i < j < |keys[1..]| ensures keys[1..][i] != keys[1..][j] {
          assert keys[1..][i] == keys[i + 1] && keys[1..][j] == keys[j + 1];
        }
      }
      var rest := ScanOffline(updated, keys[1..], counter, tolerance);
      StaleKeysFrame(devices, updated, keys[1..], counter, tolerance);
      (rest.0, reported + rest.1)
  }

  /** `StaleKeys` only reads the records of the keys it is given. */
  lemma {:induction false} StaleKeysFrame<X>(a: map<JsValue, Record<X>>, b: map<JsValue, Record<X>>, keys: seq<JsValue>,
                                            counter: int, tolerance: int)
    requires forall k :: k in keys ==> k in a && k in b && a[k] == b[k]
    ensures StaleKeys(a, keys, counter, tolerance) == StaleKeys(b, keys, counter, tolerance)
  {
    if keys != [] {
      StaleKeysFrame(a, b, keys[1..], counter, tolerance);
    }
  }

  /** A key is reported by the scan exactly when its device is stale. */
  lemma {:induction false} StaleKeysMembers<X>(devices: map<JsValue, Record<X>>, keys: seq<JsValue>, counter: int, tolerance: int)
    requires forall k :: k in keys ==> k in devices
    ensures forall k :: k in StaleKeys(devices, keys, counter, tolerance) <==> k in keys && Stale(devices[k], counter, tolerance)
  {
    if keys != [] {
      StaleKeysMembers(devices, keys[1..], counter, tolerance);
      assert keys == [keys[0]] + keys[1..];
    }
  }

  /** Refresh a known device from a reply: new address, descriptor and
      `extra`, present again, seen in cycle `counter`. Keys and their order
      do not change. */
  function Refresh<X>(r: Registry<X>, id: JsValue, host: string, port: int, sysinfo: JsValue, counter: int, extra: X)
    : (r': Registry<X>)
    requires Valid(r) && id in r.devices
    ensures Valid(r')
    ensures r'.order == r.order && r'.devices.Keys == r.devices.Keys
    ensures r'.devices[id] == Record(host, port, sysinfo, Online, counter, extra)
    ensures forall k :: k in r.devices && k != id ==> r'.devices[k] == r.devices[k]
  {
    Registry(r.devices[id := Record(host, port, sysinfo, Online, counter, extra)], r.order)
  }

  /** Register a device seen for the first time; it goes last in the
      iteration order. */
  function Insert<X>(r: Registry<X>, id: JsValue, d: Record<X>): (r': Registry<X>)
    requires Valid(r) && id !in r.devices
    ensures Valid(r')
    ensures r'.devices.Keys == r.devices.Keys + {id}
    ensures r'.devices[id] == d
    ensures r'.order == r.order + [id]
    ensures forall k :: k in r.devices ==> r'.devices[k] == r.devices[k]
  {
    Registry(r.devices[id := d], r.order + [id])
  }

  /** `after` is `before` after an offline scan: same keys in the same
      order, each record marked offline exactly when it was stale. */
  ghost predicate Scanned<X>(before: Registry<X>, after: Registry<X>, counter: int, tolerance: int) {
    && Valid(after) && after.order == before.order && after.devices.Keys == before.devices.Keys
    && forall k :: k in before.devices ==> after.devices[k] == MarkIfStale(before.devices[k], counter, tolerance)
  }

  /** The scan applied to a whole registry. */
  function ScanRegistry<X>(r: Registry<X>, counter: int, tolerance: int): (res: (Registry<X>, seq<JsValue>))
    requires Valid(r)
    ensures Scanned(r, res.0, counter, tolerance)
    ensures Valid(res.0) && res.0.order == r.order && res.0.devices.Keys == r.devices.Keys
    ensures forall k :: k in r.devices ==> res.0.devices[k] == MarkIfStale(r.devices[k], counter, tolerance)
    ensures forall k :: k in res.1 <==> k in r.devices && Stale(r.devices[k], counter, tolerance)
    ensures NoDuplicates(res.1)
    ensures res.1 == StaleKeys(r.devices, r.order, counter, tolerance)
  {
    var scanned := ScanOffline(r.devices, r.order, counter, tolerance);
    StaleKeysMembers(r.devices, r.order, counter, tolerance);
    StaleKeysNoDuplicates(r.devices, r.order, counter, tolerance);
    (Registry(scanned.0, r.order), scanned.1)
  }

  lemma {:induction false} StaleKeysNoDuplicates<X>(devices: map<JsValue, Record<X>>, keys: seq<JsValue>, counter: int, tolerance: int)
    requires NoDuplicates(keys)
    requires forall k :: k in keys ==> k in devices
    ensures NoDuplicates(StaleKeys(devices, keys, counter, tolerance))
  {
    if keys != [] {
      assert NoDuplicates(keys[1..]) by {
        forall i, j | 0 <= i < j < |keys[1..]| ensures keys[1..][i] != keys[1..][j] {
          assert keys[1..][i] == keys[i + 1] && keys[1..][j] == keys[j + 1];
        }
      }
      StaleKeysNoDuplicates(devices, keys[1..], counter, tolerance);
      StaleKeysMembers(devices, keys[1..], counter, tolerance);
      var tail := StaleKeys(devices, keys[1..], counter, tolerance);
      assert keys[0] !in keys[1..];
      assert keys[0] !in tail;
    }
  }

  /** A scan changes only the status of stale devices: a device already
      offline is left exactly as it was and not reported, and a stale one
      keeps its address, descriptor and last-seen cycle. */
  lemma ScanTouchesOnlyStale<X>(r: Registry<X>, counter: int, tolerance: int)
    requires Valid(r)
    ensures var res := ScanRegistry(r, counter, tolerance);
            forall k :: k in r.devices ==>
              && (r.devices[k].status == Offline ==> res.0.devices[k] == r.devices[k] && k !in res.1)
              && (Stale(r.devices[k], counter, tolerance) ==> res.0.devices[k] == r.devices[k].(status := Offline) && k in res.1)
  {
  }

  /** A device is marked offline exactly in the cycle where it has missed
      `tolerance` cycles: with a tolerance of at least one, a device seen in
      cycle `s` is still present in the scans of cycles before
      `s + tolerance` and is marked offline by the scan of that cycle. */
  lemma OfflineExactlyAtTolerance<X>(d: Record<X>, tolerance: int, counter: int)
    requires d.status == Online && tolerance >= 1
    ensures counter < d.seen + tolerance ==> MarkIfStale(d, counter, tolerance) == d
    ensures counter == d.seen + tolerance ==> MarkIfStale(d, counter, tolerance).status == Offline
  {
  }
}

=== FILE: sequence.dfy ===
/** The discovery packet sequence counter of `src/client.js` and
    `lib/client.js`. The code is meant to wrap the counter to zero at a
    maximum; as written it compares a double against `Number.MAX_VALUE`,
    which an integer counter stepping by one never reaches. */
module Sequence {

  /** `Number.MAX_SAFE_INTEGER`, 2^53 - 1: the largest counter value below
      which every increment is exact. */
  const MaxSafeInteger: int := 9007199254740991

  /** 2^53: the first integer whose successor is not a double. */
  const DoubleIntegerLimit: int := MaxSafeInteger + 1

  /** `Number.MAX_VALUE`, (2^53 - 1) * 2^971, as an exact integer. */
  const MaxValue: int :=
    179769313486231570814527423731704356798070567525844996598917476803157260780028538760589558632766878171540458953514382464234321326889464182768467546703537516986049910576551282076245490090389328944075868508455133942304583236903222948165808559332123348274797826204144723168738177180919299881250404026184124858368

  /** The counter step as intended: back to 0 at the maximum, otherwise one
      more. */
  function NextSequence(counter: int): (r: int)
    ensures 0 <= counter <= MaxSafeInteger ==> 0 <= r <= MaxSafeInteger
    ensures counter < MaxSafeInteger ==> r == counter + 1
    ensures counter >= MaxSafeInteger ==> r == 0
  {
    if counter >= MaxSafeInteger then 0 else counter + 1
  }

  /** The counter after `n` discovery cycles from `start`. */
  function Advance(start: int, n: nat): int {
    if n == 0 then start else NextSequence(Advance(start, n - 1))
  }

  /** The intended counter counts discovery cycles modulo 2^53. */
  lemma {:induction false} AdvanceCountsCycles(n: nat)
    ensures Advance(0, n) == n % DoubleIntegerLimit
  {
    if n > 0 {
      AdvanceCountsCycles(n - 1);
      if (n - 1) % DoubleIntegerLimit == MaxSafeInteger {
        assert n % DoubleIntegerLimit == 0;
      } else {
        assert n % DoubleIntegerLimit == (n - 1) % DoubleIntegerLimit + 1;
      }
    }
  }

  /** `x + 1` evaluated in doubles, for the counter values reachable from 0:
      2^53 + 1 lies halfway between two doubles and rounds to the even one,
      2^53 itself. */
  function DoubleIncrement(x: int): (r: int)
    requires 0 <= x <= DoubleIntegerLimit
  {
    if x == DoubleIntegerLimit then x else x + 1
  }

  /** The step as written: a double compared with `Number.MAX_VALUE`, then `+= 1`. */
  function NextSequenceAsWritten(counter: int): (r: int)
    requires 0 <= counter <= DoubleIntegerLimit
    ensures 0 <= r <= DoubleIntegerLimit
  {
    if counter >= MaxValue then 0 else DoubleIncrement(counter)
  }

  /** As written the reset branch is dead: the counter never returns to 0,
      and once it reaches 2^53 it stays there. */
  lemma AsWrittenNeverWraps(counter: int)
    requires 0 <= counter <= DoubleIntegerLimit
    ensures NextSequenceAsWritten(counter) != 0
    ensures counter == DoubleIntegerLimit ==> NextSequenceAsWritten(counter) == counter
    ensures counter == DoubleIntegerLimit ==> NextSequence(counter) == 0
  {
  }
}

=== FILE: sysinfo.dfy ===
/** The device descriptor ("sysinfo") of `src/device/index.ts`: the
    structural type guards, the getters with fallbacks, the device-type
    classifier and the normalised MAC address. */
module Sysinfo {
  import opened Wrappers
  import opened JsValues
  import opened Text

  /** The three device classes every classifier of the library returns. */
  datatype DeviceKind = PlugKind | BulbKind | GenericKind {
    function Name(): string {
      match this
      case PlugKind => "plug"
      case BulbKind => "bulb"
      case GenericKind => "device"
    }
  }

  /** `isObjectLike`: a non-null value of `typeof` "object". */
  predicate IsObjectLike(v: JsValue) {
    v.Obj? || v.Arr?
  }

  /** `k in v`. An array owns its indices and `length`. */
  predicate HasKey(v: JsValue, k: string) {
    match v
    case Obj(m) => k in m
    case Arr(xs) => k == "length" || exists i | 0 <= i < |xs| :: NatToString(i) == k
    case _ => false
  }

  predicate IsCommonSysinfo(v: JsValue) {
    && IsObjectLike(v)
    && HasKey(v, "alias")
    && HasKey(v, "deviceId")
    && HasKey(v, "model")
    && HasKey(v, "sw_ver")
    && HasKey(v, "hw_ver")
  }

  predicate IsBulbSysinfo(v: JsValue) {
    && IsCommonSysinfo(v)
    && HasKey(v, "mic_type")
    && HasKey(v, "mic_mac")
    && HasKey(v, "description")
    && HasKey(v, "light_state")
    && HasKey(v, "is_dimmable")
    && HasKey(v, "is_color")
    && HasKey(v, "is_variable_color_temp")
  }

  predicate IsPlugSysinfo(v: JsValue) {
    && IsCommonSysinfo(v)
    && (HasKey(v, "type") || HasKey(v, "mic_type"))
    && (HasKey(v, "mac") || HasKey(v, "ethernet_mac"))
    && HasKey(v, "feature")
    && (HasKey(v, "relay_state") || HasKey(v, "children"))
  }

  predicate IsSysinfo(v: JsValue) {
    IsPlugSysinfo(v) || IsBulbSysinfo(v)
  }

  /** Reference description of a descriptor shape: a list of key groups,
      each of which must have at least one of its keys present. */
  ghost predicate HasShape(v: JsValue, shape: seq<seq<string>>) {
    IsObjectLike(v) &&
    forall g :: 0 <= g < |shape| ==> GroupMet(v, shape[g])
  }

  /** At least one key of the group is present. */
  ghost predicate GroupMet(v: JsValue, group: seq<string>) {
    exists k :: k in group && HasKey(v, k)
  }

  const CommonShape: seq<seq<string>> :=
    [["alias"], ["deviceId"], ["model"], ["sw_ver"], ["hw_ver"]]

  const PlugShape: seq<seq<string>> :=
    CommonShape + [["type", "mic_type"], ["mac", "ethernet_mac"], ["feature"], ["relay_state", "children"]]

  const BulbShape: seq<seq<string>> :=
    CommonShape + [["mic_type"], ["mic_mac"], ["description"], ["light_state"],
                   ["is_dimmable"], ["is_color"], ["is_variable_color_temp"]]

  lemma CommonShapeExact(v: JsValue)
    ensures IsCommonSysinfo(v) <==> HasShape(v, CommonShape)
  {
    if HasShape(v, CommonShape) {
      assert GroupMet(v, CommonShape[0]);
      assert GroupMet(v, CommonShape[1]);
      assert GroupMet(v, CommonShape[2]);
      assert GroupMet(v, CommonShape[3]);
      assert GroupMet(v, CommonShape[4]);
    }
    if IsCommonSysinfo(v) {
      forall g | 0 <= g < |CommonShape|
        ensures GroupMet(v, CommonShape[g])
      {
        assert CommonShape[g][0] in CommonShape[g];
      }
    }
  }

  /** The plug guard accepts exactly the objects with the plug shape. */
  lemma PlugShapeExact(v: JsValue)
    ensures IsPlugSysinfo(v) <==> HasShape(v, PlugShape)
  {
    CommonShapeExact(v);
    ShapeSplit(v, CommonShape, [["type", "mic_type"], ["mac", "ethernet_mac"], ["feature"], ["relay_state", "children"]]);
    var rest := [["type", "mic_type"], ["mac", "ethernet_mac"], ["feature"], ["relay_state", "children"]];
    if HasShape(v, rest) {
      assert GroupMet(v, rest[0]);
      assert GroupMet(v, rest[1]);
      assert GroupMet(v, rest[2]);
      assert GroupMet(v, rest[3]);
    }
    if IsPlugSysinfo(v) {
      forall g | 0 <= g < |rest|
        ensures GroupMet(v, rest[g])
      {
        if g == 0 {
          if HasKey(v, "type") { assert "type" in rest[g]; } else { assert "mic_type" in rest[g]; }
        } else if g == 1 {
          if HasKey(v, "mac") { assert "mac" in rest[g]; } else { assert "ethernet_mac" in rest[g]; }
        } else if g == 2 {
          assert "feature" in rest[g];
        } else {
          if HasKey(v, "relay_state") { assert "relay_state" in rest[g]; } else { assert "children" in rest[g]; }
        }
      }
    }
  }

  /** The bulb guard accepts exactly the objects with the bulb shape. */
  lemma BulbShapeExact(v: JsValue)
    ensures IsBulbSysinfo(v) <==> HasShape(v, BulbShape)
  {
    CommonShapeExact(v);
    var rest := [["mic_type"], ["mic_mac"], ["description"], ["light_state"],
                 ["is_dimmable"], ["is_color"], ["is_variable_color_temp"]];
    ShapeSplit(v, CommonShape, rest);
    if HasShape(v, rest) {
      assert GroupMet(v, rest[0]);
      assert GroupMet(v, rest[1]);
      assert GroupMet(v, rest[2]);
      assert GroupMet(v, rest[3]);
      assert GroupMet(v, rest[4]);
      assert GroupMet(v, rest[5]);
      assert GroupMet(v, rest[6]);
    }
    if IsBulbSysinfo(v) {
      forall g | 0 <= g < |rest|
        ensures GroupMet(v, rest[g])
      {
        assert rest[g][0] in rest[g];
      }
    }
  }

  /** A shape made of two lists of groups is met iff both lists are. */
  lemma ShapeSplit(v: JsValue, a: seq<seq<string>>, b: seq<seq<string>>)
    ensures HasShape(v, a + b) <==> HasShape(v, a) && HasShape(v, b)
  {
    if HasShape(v, a) && HasShape(v, b) {
      forall g | 0 <= g < |a + b|
        ensures GroupMet(v, (a + b)[g])
      {
        if g < |a| {
          assert (a + b)[g] == a[g];
        } else {
          assert (a + b)[g] == b[g - |a|];
        }
      }
    }
    if HasShape(v, a + b) {
      forall g | 0 <= g < |a|
        ensures GroupMet(v, a[g])
      {
        assert (a + b)[g] == a[g];
        var k :| k in (a + b)[g] && HasKey(v, k);
        assert k in a[g];
      }
      forall g | 0 <= g < |b|
        ensures GroupMet(v, b[g])
      {
        assert (a + b)[|a| + g] == b[g];
        var k :| k in (a + b)[|a| + g] && HasKey(v, k);
        assert k in b[g];
      }
    }
  }

  /** Both specialised guards refine the common one, and the descriptor
      guard is exactly "plug shape or bulb shape". */
  lemma SysinfoGuards(v: JsValue)
    ensures IsBulbSysinfo(v) ==> IsCommonSysinfo(v)
    ensures IsPlugSysinfo(v) ==> IsCommonSysinfo(v)
    ensures IsSysinfo(v) <==> HasShape(v, PlugShape) || HasShape(v, BulbShape)
    ensures IsCommonSysinfo(v) ==> v.Obj?
  {
    if IsCommonSysinfo(v) {
      CommonSysinfoIsObject(v);
    }
    PlugShapeExact(v);
    BulbShapeExact(v);
  }

  /** An array never passes the guards: `alias` is neither `length` nor an
      index. */
  lemma CommonSysinfoIsObject(v: JsValue)
    requires IsCommonSysinfo(v)
    ensures v.Obj?
  {
  }

  /** The guards look only at which keys are present: adding keys to an
      accepted descriptor object keeps it accepted, whatever the values. */
  lemma {:induction false} ShapeMonotone(v: JsValue, w: JsValue, shape: seq<seq<string>>)
    requires v.Obj? && w.Obj? && v.fields.Keys <= w.fields.Keys
    requires HasShape(v, shape)
    ensures HasShape(w, shape)
  {
    forall g | 0 <= g < |shape|
      ensures GroupMet(w, shape[g])
    {
      var k :| k in shape[g] && HasKey(v, k);
      assert k in w.fields;
      assert HasKey(w, k);
    }
    assert IsObjectLike(w);
  }

  lemma SysinfoMonotone(v: JsValue, w: JsValue)
    requires v.Obj? && w.Obj? && v.fields.Keys <= w.fields.Keys
    ensures IsPlugSysinfo(v) ==> IsPlugSysinfo(w)
    ensures IsBulbSysinfo(v) ==> IsBulbSysinfo(w)
    ensures IsSysinfo(v) ==> IsSysinfo(w)
  {
    PlugShapeExact(v);
    PlugShapeExact(w);
    BulbShapeExact(v);
    BulbShapeExact(w);
    if IsPlugSysinfo(v) {
      ShapeMonotone(v, w, PlugShape);
    }
    if IsBulbSysinfo(v) {
      ShapeMonotone(v, w, BulbShape);
    }
  }

  /** The value of the first key in `keys` that holds a defined value. */
  function FirstDefined(m: map<string, JsValue>, keys: seq<string>): (r: Option<JsValue>)
    ensures forall i :: 0 <= i < |keys| && Defined(m, keys[i]) && (forall j :: 0 <= j < i ==> !Defined(m, keys[j]))
                        ==> r == Some(m[keys[i]])
    ensures (forall i :: 0 <= i < |keys| ==> !Defined(m, keys[i])) <==> r.None?
  {
    if keys == [] then None
    else if Defined(m, keys[0]) then Some(m[keys[0]])
    else
      var r := FirstDefined(m, keys[1..]);
      assert forall i :: 1 <= i < |keys| ==> keys[i] == keys[1..][i - 1];
      assert forall i :: 0 <= i < |keys| && Defined(m, keys[i]) && (forall j :: 0 <= j < i ==> !Defined(m, keys[j]))
                         ==> r == Some(m[keys[i]]) by {
        forall i | 0 <= i < |keys| && Defined(m, keys[i]) && (forall j :: 0 <= j < i ==> !Defined(m, keys[j]))
          ensures r == Some(m[keys[i]])
        {
          var t := keys[1..];
          assert t[i - 1] == keys[i];
          forall j | 0 <= j < i - 1 ensures !Defined(m, t[j]) {
            assert t[j] == keys[j + 1];
          }
        }
      }
      r
  }

  /** `get type()`: `type` when defined, else `mic_type` when defined, else "". */
  function TypeOf(m: map<string, JsValue>): (r: JsValue)
    ensures Defined(m, "type") ==> r == m["type"]
    ensures !Defined(m, "type") && Defined(m, "mic_type") ==> r == m["mic_type"]
    ensures !Defined(m, "type") && !Defined(m, "mic_type") ==> r == Str("")
    ensures r != Undefined
  {
    var keys := ["type", "mic_type"];
    assert keys[0] == "type" && keys[1] == "mic_type";
    FirstDefined(m, keys).GetOr(Str(""))
  }

  /** `get mac()`: `mac`, then `mic_mac`, then `ethernet_mac`, then "". */
  function MacOf(m: map<string, JsValue>): (r: JsValue)
    ensures Defined(m, "mac") ==> r == m["mac"]
    ensures !Defined(m, "mac") && Defined(m, "mic_mac") ==> r == m["mic_mac"]
    ensures !Defined(m, "mac") && !Defined(m, "mic_mac") && Defined(m, "ethernet_mac") ==> r == m["ethernet_mac"]
    ensures !Defined(m, "mac") && !Defined(m, "mic_mac") && !Defined(m, "ethernet_mac") ==> r == Str("")
    ensures r != Undefined
  {
    var keys := ["mac", "mic_mac", "ethernet_mac"];
    assert keys[0] == "mac" && keys[1] == "mic_mac" && keys[2] == "ethernet_mac";
    FirstDefined(m, keys).GetOr(Str(""))
  }

  /** `get alias()` (and `get name()`): the empty string only when the
      device has no descriptor at all; a descriptor without `alias` yields
      `undefined`. */
  function AliasOf(sysinfo: Option<map<string, JsValue>>): (r: JsValue)
    ensures sysinfo.None? ==> r == Str("")
    ensures sysinfo.Some? && "alias" in sysinfo.value ==> r == sysinfo.value["alias"]
    ensures sysinfo.Some? && "alias" !in sysinfo.value ==> r == Undefined
  {
    match sysinfo
    case None => Str("")
    case Some(m) => Field(m, "alias")
  }

  /** `get deviceType()`: `/plug/i` is tried before `/bulb/i` on the type
      string, so a type mentioning both is a plug. */
  function DeviceTypeOf(m: map<string, JsValue>): (r: DeviceKind)
    ensures r == PlugKind <==> Occurs(ToJsString(TypeOf(m)), "plug", true)
    ensures r == BulbKind <==> !Occurs(ToJsString(TypeOf(m)), "plug", true) && Occurs(ToJsString(TypeOf(m)), "bulb", true)
    ensures r == GenericKind <==> !Occurs(ToJsString(TypeOf(m)), "plug", true) && !Occurs(ToJsString(TypeOf(m)), "bulb", true)
  {
    var t := ToJsString(TypeOf(m));
    if TestIgnoreCase(t, "plug") then PlugKind
    else if TestIgnoreCase(t, "bulb") then BulbKind
    else GenericKind
  }

  /** The documented plug type string classifies as a plug, and a type
      naming both words is a plug too. */
  lemma DeviceTypeExamples()
    ensures DeviceTypeOf(map["type" := Str("IOT.SMARTPLUGSWITCH")]) == PlugKind
    ensures DeviceTypeOf(map["type" := Undefined, "mic_type" := Str("bulb+plug")]) == PlugKind
  {
    var m1 := map["type" := Str("IOT.SMARTPLUGSWITCH")];
    assert ToJsString(TypeOf(m1)) == "IOT.SMARTPLUGSWITCH";
    assert MatchesAt("IOT.SMARTPLUGSWITCH", "plug", 9, true);
    var m2 := map["type" := Undefined, "mic_type" := Str("bulb+plug")];
    assert ToJsString(TypeOf(m2)) == "bulb+plug";
    assert MatchesAt("bulb+plug", "plug", 5, true);
  }

  /** The bulb type string classifies as a bulb. */
  lemma DeviceTypeBulbExample()
    ensures DeviceTypeOf(map["mic_type" := Str("IOT.SMARTBULB")]) == BulbKind
  {
    var m := map["mic_type" := Str("IOT.SMARTBULB")];
    assert ToJsString(TypeOf(m)) == "IOT.SMARTBULB";
    assert MatchesAt("IOT.SMARTBULB", "bulb", 9, true);
    var t := "IOT.SMARTBULB";
    forall i | 0 <= i < |t| ensures LowerAscii(t[i]) != 'p' {
      assert t[i] in "IOT.SMARTBULB";
    }
    MissingFirstLetter(t, "plug");
  }

  /** A string in which no character folds onto the pattern's first
      character does not contain the pattern. */
  lemma MissingFirstLetter(s: string, pat: string)
    requires |pat| > 0
    requires forall i :: 0 <= i < |s| ==> LowerAscii(s[i]) != LowerAscii(pat[0])
    ensures !Occurs(s, pat, true)
  {
    forall i ensures !MatchesAt(s, pat, i, true) {
      if 0 <= i && i + |pat| <= |s| {
        assert !SameChar(s[i + 0], pat[0], true);
      }
    }
  }

  /** `get macNormalized()`: a falsy MAC gives "", a string is normalised,
      and any other value has no `replace` method, so the getter throws. */
  function MacNormalized(m: map<string, JsValue>): (r: Result<string, JsError>)
    ensures r.Err? <==> Truthy(MacOf(m)) && !MacOf(m).Str?
    ensures MacOf(m).Str? ==> r == Ok(MacNormalize(MacOf(m).s))
    ensures !Truthy(MacOf(m)) ==> r == Ok("")
    ensures r.Ok? ==> forall i :: 0 <= i < |r.value| ==> IsAsciiUpper(r.value[i]) || IsAsciiDigit(r.value[i])
  {
    var mac := MacOf(m);
    if !Truthy(mac) then Ok("")
    else if mac.Str? then Ok(MacNormalize(mac.s))
    else Err(TypeError("mac.replace is not a function"))
  }

  /** A descriptor whose MAC is already the normalised form of another
      descriptor's MAC normalises to the same string. */
  lemma MacNormalizedIdempotent(m: map<string, JsValue>, m': map<string, JsValue>)
    requires MacNormalized(m).Ok?
    requires "mac" in m' && m'["mac"] == Str(MacNormalized(m).value)
    ensures MacNormalized(m') == MacNormalized(m)
  {
    var x := MacNormalized(m).value;
    if MacOf(m).Str? {
      MacNormalizeIdempotent(MacOf(m).s);
    }
  }
}

=== FILE: text.dfy ===
/** ASCII character classes, substring search (case-sensitive as in
    `String.prototype.includes`, ASCII case-insensitive as in a `/…/i`
    regular expression made of letters) and the MAC address normaliser. */
module Text {
  import opened Wrappers

  predicate IsAsciiLower(c: char) { 'a' <= c <= 'z' }

  predicate IsAsciiUpper(c: char) { 'A' <= c <= 'Z' }

  predicate IsAsciiDigit(c: char) { '0' <= c <= '9' }

  predicate IsAsciiAlnum(c: char) {
    IsAsciiLower(c) || IsAsciiUpper(c) || IsAsciiDigit(c)
  }

  function UpperAscii(c: char): char {
    if IsAsciiLower(c) then (c as int - 32) as char else c
  }

  function LowerAscii(c: char): char {
    if IsAsciiUpper(c) then (c as int + 32) as char else c
  }

  /** Character equality, optionally folding ASCII case. A non-ASCII
      character never folds onto an ASCII one in a non-unicode `/…/i`
      regular expression, so ASCII folding is the whole story for the
      letter-only patterns the library uses. */
  predicate SameChar(a: char, b: char, foldCase: bool) {
    if foldCase then LowerAscii(a) == LowerAscii(b) else a == b
  }

  /** `pat` occurs in `s` starting at index `i`. */
  predicate MatchesAt(s: string, pat: string, i: int, foldCase: bool) {
    0 <= i && i + |pat| <= |s| &&
    forall j :: 0 <= j < |pat| ==> SameChar(s[i + j], pat[j], foldCase)
  }

  /** Reference meaning of "s contains pat". */
  ghost predicate Occurs(s: string, pat: string, foldCase: bool) {
    exists i :: MatchesAt(s, pat, i, foldCase)
  }

  /** Leftmost occurrence of `pat` in `s` at or after `from`. */
  function IndexFrom(s: string, pat: string, foldCase: bool, from: nat): (r: Option<nat>)
    ensures r.Some? ==> from <= r.value && MatchesAt(s, pat, r.value, foldCase)
    ensures r.Some? ==> forall i :: from <= i < r.value ==> !MatchesAt(s, pat, i, foldCase)
    ensures r.None? ==> forall i :: from <= i ==> !MatchesAt(s, pat, i, foldCase)
    decreases |s| - from
  {
    if from + |pat| > |s| then None
    else if MatchesAt(s, pat, from, foldCase) then Some(from)
    else IndexFrom(s, pat, foldCase, from + 1)
  }

  /** `s.includes(pat)`. */
  function Includes(s: string, pat: string): (r: bool)
    ensures r <==> Occurs(s, pat, false)
  {
    IndexFrom(s, pat, false, 0).Some?
  }

  /** `/pat/i.test(s)` for a pattern of plain letters. */
  function TestIgnoreCase(s: string, pat: string): (r: bool)
    ensures r <==> Occurs(s, pat, true)
  {
    IndexFrom(s, pat, true, 0).Some?
  }

  /** `mac.replace(/[^A-Za-z0-9]/g, '').toUpperCase()`. */
  function MacNormalize(s: string): (r: string)
    ensures forall i :: 0 <= i < |r| ==> IsAsciiUpper(r[i]) || IsAsciiDigit(r[i])
    ensures |r| <= |s|
  {
    if s == [] then []
    else
      var head := if IsAsciiAlnum(s[0]) then [UpperAscii(s[0])] else [];
      head + MacNormalize(s[1..])
  }

  /** Normalising a single character keeps it, upper-cased, exactly when it
      is an ASCII letter or digit. */
  lemma MacNormalizeChar(c: char)
    ensures IsAsciiAlnum(c) ==> MacNormalize([c]) == [UpperAscii(c)]
    ensures !IsAsciiAlnum(c) ==> MacNormalize([c]) == []
  {
    assert [c][1..] == [];
  }

  /** Normalising distributes over concatenation; together with
      `MacNormalizeChar` this says the result is exactly the ASCII
      alphanumerics of the input, in order, upper-cased. */
  lemma {:induction false} MacNormalizeAppend(a: string, b: string)
    ensures MacNormalize(a + b) == MacNormalize(a) + MacNormalize(b)
  {
    if a == [] {
      assert a + b == b;
    } else {
      assert (a + b)[0] == a[0];
      assert (a + b)[1..] == a[1..] + b;
      MacNormalizeAppend(a[1..], b);
    }
  }

  /** A string of upper-case letters and digits is already normalised. */
  lemma {:induction false} MacNormalizeFixed(s: string)
    requires forall i :: 0 <= i < |s| ==> IsAsciiUpper(s[i]) || IsAsciiDigit(s[i])
    ensures MacNormalize(s) == s
  {
    if s != [] {
      MacNormalizeFixed(s[1..]);
      assert [s[0]] + s[1..] == s;
    }
  }

  lemma MacNormalizeIdempotent(s: string)
    ensures MacNormalize(MacNormalize(s)) == MacNormalize(s)
  {
    MacNormalizeFixed(MacNormalize(s));
  }

  lemma {:induction false} MacNormalizeNone(s: string)
    requires forall i :: 0 <= i < |s| ==> !IsAsciiAlnum(s[i])
    ensures MacNormalize(s) == []
  {
    if s != [] {
      MacNormalizeNone(s[1..]);
    }
  }

  /** The pieces of `parts` joined with `sep` between them. */
  function JoinWith(parts: seq<string>, sep: string): string {
    if |parts| == 0 then []
    else if |parts| == 1 then parts[0]
    else parts[0] + sep + JoinWith(parts[1..], sep)
  }

  function Concat(parts: seq<string>): string {
    if parts == [] then [] else parts[0] + Concat(parts[1..])
  }

  /** A MAC written with any separator that is not a letter or digit
      (`aa:bb:cc:00:11:22`, `aa-bb-cc-00-11-22`) normalises to the same
      value as its octets written back to back. */
  lemma {:induction false} MacNormalizeIgnoresSeparators(octets: seq<string>, sep: string)
    requires forall i :: 0 <= i < |sep| ==> !IsAsciiAlnum(sep[i])
    ensures MacNormalize(JoinWith(octets, sep)) == MacNormalize(Concat(octets))
  {
    if |octets| == 1 {
      assert octets[1..] == [] && octets[0] + [] == octets[0];
      assert Concat(octets) == octets[0] == JoinWith(octets, sep);
    } else if |octets| > 1 {
      MacNormalizeIgnoresSeparators(octets[1..], sep);
      MacNormalizeNone(sep);
      MacNormalizeAppend(octets[0] + sep, JoinWith(octets[1..], sep));
      MacNormalizeAppend(octets[0], sep);
      MacNormalizeAppend(octets[0], Concat(octets[1..]));
      assert MacNormalize(octets[0] + sep) == MacNormalize(octets[0]) + [];
      assert JoinWith(octets, sep) == (octets[0] + sep) + JoinWith(octets[1..], sep);
      assert Concat(octets) == octets[0] + Concat(octets[1..]);
    }
  }
}

=== FILE: wrappers.dfy ===
/** Optional values and results with an error, used wherever the JavaScript
    code has `undefined`/`null` or throws. */
module Wrappers {

  datatype Option<+T> = None | Some(value: T) {

    /** The held value, or `default` when there is none. */
    function GetOr(default: T): T {
      match this
      case Some(v) => v
      case None => default
    }
  }

  datatype Result<+T, +E> = Ok(value: T) | Err(error: E) {

    predicate IsFailure() {
      Err?
    }

    function PropagateFailure<U>(): Result<U, E>
      requires Err?
    {
      Err(error)
    }

    function Extract(): T
      requires Ok?
    {
      value
    }
  }
}
